=== FILE: README.md ===
# ExoPlayer core pieces, modelled in Dafny

This project models five small pieces of ExoPlayer and proves properties about them.

- **`Mp4WebvttParser`** reads WebVTT cues carried in MP4 samples. A sample is a flat run of boxes in the box layout of section 4.2 of ISO/IEC 14496-12. Each `vttc` cue box (ISO/IEC 14496-30) becomes one cue, built from its last `sttg` (settings) child and its last `payl` (text) child. Every other top-level box is skipped.
- **`DataSpec`** is the immutable description of a data request. The model covers:
  - the checks and body normalisation of its constructors;
  - `isFlagSet` and the HTTP method names;
  - `subrange` and `withUri`.
- **SubRip parsing**, at the level that `SubripParserTest` fixes:
  - timecode arithmetic;
  - the two entries each cue yields;
  - which blocks are dropped;
  - tag stripping;
  - the `{\anN}` alignment table.
- **`MdtaMetadataEntry`**, an `mdta` metadata entry (QuickTime File Format). The model covers its equality, its `hashCode`, its parcel round trip and the `toString` dispatch.
- **`ExoPlaybackException`**, a playback failure tagged with its type. The model covers the factories, the typed getters and the derived message.

Files:

| file | module | content |
|---|---|---|
| `wrappers.dfy` | `Wrappers` | `Option`, `Result` |
| `java_int.dfy` | `JavaInt` | Java `int`/`long` ranges and wrap-around, big-endian `readInt` |
| `c.dfy` | `C` | `TIME_UNSET`, `LENGTH_UNSET`, `INDEX_UNSET`, `FORMAT_HANDLED` |
| `cues.dfy` | `Cues` | `CuesWithTiming`, anchor and line types |
| `mp4_webvtt_parser.dfy` | `Mp4WebvttParser` | the box parser |
| `mp4_webvtt_boxes.dfy` | `Mp4WebvttBoxes` | a reference description of well-formed samples, and the parser's properties against it |
| `data_spec.dfy` | `DataSpec` | `DataSpec` |
| `subrip.dfy` | `Subrip` | SubRip timecodes, tags, alignment and entry layout |
| `mdta_metadata_entry.dfy` | `MdtaMetadataEntry` | `MdtaMetadataEntry` |
| `exo_playback_exception.dfy` | `Decimal`, `ExoPlaybackException` | decimal text of integers; `ExoPlaybackException` |

Design notes:

- **Collaborators.** Calls into code that is not part of this model are passed in as records of function values and stay uninterpreted:
  - `Mp4WebvttParser.Collaborators` stands for UTF-8 decoding, `trim`, the `WebvttCueParser` calls and `Cue.Builder`;
  - `MdtaMetadataEntry.Hashes` stands for `String.hashCode` and `Arrays.hashCode`;
  - `MdtaMetadataEntry.Formatters` stands for the value formatters;
  - `ExoPlaybackException.MessageText` stands for `getFormatSupportString`;
  - `Subrip` takes the fraction of an anchor as a function parameter.
- **The byte cursor.** `ParsableByteArray` is modelled by the bytes between its position and its limit. Reads beyond what is visible end in the error `OutsideModel`. These reads are a negative skip, a skip or read past the limit, and a negative decode length.
- **Integers.** In `Mp4WebvttParser`, `DataSpec` and `MdtaMetadataEntry`, Java `int` and `long` arithmetic is modelled with explicit wrap-around wherever it can overflow:
  - `boxSize - 8`;
  - the `hashCode` fold;
  - the position sums of `subrange` and `length - offset`.
- **Time.** `SystemClock.elapsedRealtime()` becomes the parameter `nowMs`.

## Model

| member | source | states |
|---|---|---|
| Mp4WebvttParser.MinusHeader | library/extractor/src/main/java/com/google/android/exoplayer2/text/webvtt/Mp4WebvttParser.java:75-78 | `boxSize - 8` is the Java `int` value of the exact difference; for every size at least `Integer.MIN_VALUE + 8` it is the exact difference |
| Mp4WebvttParser.ApplyChild | library/extractor/src/main/java/com/google/android/exoplayer2/text/webvtt/Mp4WebvttParser.java:102-110 | an `sttg` child replaces the settings, a `payl` child replaces the text, and any other child leaves the cue unchanged |
| Mp4WebvttParser.CueText | library/extractor/src/main/java/com/google/android/exoplayer2/text/webvtt/Mp4WebvttParser.java:104-114 | the cue text is the parsed, trimmed, decoded `payl` payload, and the empty text when the box has no `payl` child |
| Mp4WebvttParser.BuildCue | library/extractor/src/main/java/com/google/android/exoplayer2/text/webvtt/Mp4WebvttParser.java:115-117 | with an `sttg` child the cue is the parsed settings list built with the text; without one it is the default cue for the text |
| Mp4WebvttParser.ParseCueBoxChildren | library/extractor/src/main/java/com/google/android/exoplayer2/text/webvtt/Mp4WebvttParser.java:91-101 | with no budget left no child is read; a budget of 1 to 7 bytes fails the header check; on success the loop has consumed at least the budget |
| Mp4WebvttParser.ParseBoxes | library/extractor/src/main/java/com/google/android/exoplayer2/text/webvtt/Mp4WebvttParser.java:66-80 | no bytes give no cues; 1 to 7 bytes before a top-level header fail the header check |
| Mp4WebvttParser.Parse | library/extractor/src/main/java/com/google/android/exoplayer2/text/webvtt/Mp4WebvttParser.java:61-83 | succeeds exactly when the box loop over `data[offset, offset + length)` does, and then returns one `CuesWithTiming` with unset start and duration, holding one cue per cue box in order; otherwise it fails with the loop's error |
| Mp4WebvttBoxes.LaterChildOverrides | library/extractor/src/main/java/com/google/android/exoplayer2/text/webvtt/Mp4WebvttParser.java:102-110 | a later child of the same type overrides an earlier one, and a child of another type changes neither value |
| Mp4WebvttBoxes.MissingChildDefaults | library/extractor/src/main/java/com/google/android/exoplayer2/text/webvtt/Mp4WebvttParser.java:112-117 | a cue box without a `payl` child gets the empty text; one without an `sttg` child gets the default cue for its text |
| Mp4WebvttBoxes.MergeCons | library/extractor/src/main/java/com/google/android/exoplayer2/text/webvtt/Mp4WebvttParser.java:102-110 | one step of the child loop agrees with the reference "last child of each type wins" |
| Mp4WebvttBoxes.BoxHeader | library/extractor/src/main/java/com/google/android/exoplayer2/text/webvtt/Mp4WebvttParser.java:72-73 | the size field of a serialised box reads back as 8 plus the payload length, and its type field reads back as its type; the payload and what follows sit right after the header |
| Mp4WebvttBoxes.ChildStep | library/extractor/src/main/java/com/google/android/exoplayer2/text/webvtt/Mp4WebvttParser.java:94-101 | a child reduces the budget by exactly 8 + payloadLength, and the cursor advances by the same amount |
| Mp4WebvttBoxes.ParseSerializedChildren | library/extractor/src/main/java/com/google/android/exoplayer2/text/webvtt/Mp4WebvttParser.java:88-111 | serialised children followed by any bytes are read back exactly, and the loop stops right after the last child with the reference cue |
| Mp4WebvttBoxes.ChildrenLeaveSuffix | library/extractor/src/main/java/com/google/android/exoplayer2/text/webvtt/Mp4WebvttParser.java:91-111 | the child loop consumes a prefix of the sample and leaves its tail |
| Mp4WebvttBoxes.ShortCueBox | library/extractor/src/main/java/com/google/android/exoplayer2/text/webvtt/Mp4WebvttParser.java:74-75 | a cue box whose size is at most 8 still yields a cue, with neither settings nor text, and parsing resumes right after its header |
| Mp4WebvttBoxes.CueBoxStep | library/extractor/src/main/java/com/google/android/exoplayer2/text/webvtt/Mp4WebvttParser.java:74-75 | a top-level cue box contributes its cue in front of the cues of the boxes after it |
| Mp4WebvttBoxes.PeerBoxStep | library/extractor/src/main/java/com/google/android/exoplayer2/text/webvtt/Mp4WebvttParser.java:76-79 | any other top-level box is skipped by exactly `size - 8` bytes and contributes no cue |
| Mp4WebvttBoxes.ParseSerializedBoxes | library/extractor/src/main/java/com/google/android/exoplayer2/text/webvtt/Mp4WebvttParser.java:66-80 | a well-formed sample yields one cue per cue box, in box order, each with the last settings and the last text of its children |
| Mp4WebvttBoxes.ParseSerializedSample | library/extractor/src/main/java/com/google/android/exoplayer2/text/webvtt/Mp4WebvttParser.java:61-83 | `parse` over a range holding a well-formed sample returns exactly one `CuesWithTiming` with unset timing and those cues |
| Mp4WebvttBoxes.ParseDependsOnlyOnRange | library/extractor/src/main/java/com/google/android/exoplayer2/text/webvtt/Mp4WebvttParser.java:62-64 | the result depends only on `data[offset, offset + length)`; no state carries over from one call to the next (`reset` does nothing) |
| DataSpec.Create | library/core/src/main/java/com/google/android/exoplayer2/upstream/DataSpec.java:233-254 | succeeds exactly when absoluteStreamPosition ≥ 0, position ≥ 0 and length > 0 or unset; a missing or empty body is stored as none, any other body as given, and `postBody` always equals `httpBody`; the other fields are stored as given |
| DataSpec.WithPostBody | library/core/src/main/java/com/google/android/exoplayer2/upstream/DataSpec.java:200-217 | the method is POST exactly when a body is given, otherwise GET; an empty body gives POST with no stored body; uri, both positions, length, key and flags are stored as given |
| DataSpec.WithPositions | library/core/src/main/java/com/google/android/exoplayer2/upstream/DataSpec.java:176-184 | the same checks as the canonical constructor; a GET with no body, with uri, both positions, length, key and flags stored as given |
| DataSpec.AtPositionWithFlags | library/core/src/main/java/com/google/android/exoplayer2/upstream/DataSpec.java:160-163 | position equals absoluteStreamPosition; a GET with no body, with uri, length, key and flags stored as given |
| DataSpec.AtPosition | library/core/src/main/java/com/google/android/exoplayer2/upstream/DataSpec.java:147-149 | position equals absoluteStreamPosition; a GET with no body and no flags, with uri, length and key stored as given |
| DataSpec.ConstructorsDelegate | library/core/src/main/java/com/google/android/exoplayer2/upstream/DataSpec.java:147-217 | each convenience constructor equals the canonical constructor with POST for a given body, GET and no body otherwise, position = absolute position and flags 0 where omitted |
| DataSpec.OfUriWithFlags | library/core/src/main/java/com/google/android/exoplayer2/upstream/DataSpec.java:135-137 | position 0, unset length, no key, GET, no body, the given flags; always valid |
| DataSpec.OfUri | library/core/src/main/java/com/google/android/exoplayer2/upstream/DataSpec.java:125-127 | position 0, unset length, no key, GET, no body and no flags; always valid |
| DataSpec.BitAndSubset | library/core/src/main/java/com/google/android/exoplayer2/upstream/DataSpec.java:262 | `(a & b) == b` holds exactly when every bit of `b` is set in `a` |
| DataSpec.IsFlagSet | library/core/src/main/java/com/google/android/exoplayer2/upstream/DataSpec.java:261-263 | `isFlagSet(f)` holds exactly when every bit of `f` is among the flags, so `isFlagSet(0)` always holds |
| DataSpec.DefinedFlagBits | library/core/src/main/java/com/google/android/exoplayer2/upstream/DataSpec.java:54-60 | `FLAG_ALLOW_GZIP` tests as set exactly when bit 0 of the flags is set, and `FLAG_ALLOW_CACHING_UNKNOWN_LENGTH` exactly when bit 1 is, for any flags |
| DataSpec.HttpMethodName | library/core/src/main/java/com/google/android/exoplayer2/upstream/DataSpec.java:298-309 | succeeds exactly for the methods 1, 2 and 3, and any other value fails with that value |
| DataSpec.HttpMethodOfName | library/core/src/main/java/com/google/android/exoplayer2/upstream/DataSpec.java:298-309 | a name it accepts is the name of the method it returns |
| DataSpec.HttpMethodNameInverse | library/core/src/main/java/com/google/android/exoplayer2/upstream/DataSpec.java:298-309 | the name of a method determines the method: 1, 2 and 3 map to "GET", "POST" and "HEAD" one-to-one |
| DataSpec.HttpMethodString | library/core/src/main/java/com/google/android/exoplayer2/upstream/DataSpec.java:290-292 | the name of the spec's own method, which reads back as that method |
| DataSpec.Subrange | library/core/src/main/java/com/google/android/exoplayer2/upstream/DataSpec.java:329-343 | offset 0 with the same length returns the spec itself; otherwise a successful result is a new spec whose absoluteStreamPosition and position are the old ones plus the offset (in `long` arithmetic), with the new length, and uri, method, body, key and flags unchanged |
| DataSpec.SubrangeShiftsPositions | library/core/src/main/java/com/google/android/exoplayer2/upstream/DataSpec.java:337-338 | a successful subrange keeps the difference between absoluteStreamPosition and position |
| DataSpec.SubrangeSucceedsIff | library/core/src/main/java/com/google/android/exoplayer2/upstream/DataSpec.java:333-342 | a new subrange is valid exactly when both shifted positions stay non-negative and the new length is positive or unset |
| DataSpec.SubrangeFrom | library/core/src/main/java/com/google/android/exoplayer2/upstream/DataSpec.java:318-320 | an unset length stays unset; otherwise the new length is length − offset |
| DataSpec.SubrangeFromKeepsEnd | library/core/src/main/java/com/google/android/exoplayer2/upstream/DataSpec.java:318-320 | an offset inside a known length gives a subrange that ends where the spec ends |
| DataSpec.SubrangeFromEndFails | library/core/src/main/java/com/google/android/exoplayer2/upstream/DataSpec.java:318-320 | an offset equal to a known length leaves a zero length, which the constructor rejects |
| DataSpec.WithUri | library/core/src/main/java/com/google/android/exoplayer2/upstream/DataSpec.java:351-354 | on a valid spec, only the uri changes |
| Subrip.TimecodeUs | library/extractor/src/test/java/com/google/android/exoplayer2/text/subrip/SubripParserTest.java:262-268 | a timecode with no negative component denotes a non-negative whole number of milliseconds, in microseconds |
| Subrip.ToTimecodeRoundTrip | library/extractor/src/test/java/com/google/android/exoplayer2/text/subrip/SubripParserTest.java:262-268 | the formula `((h·3600 + m·60 + s)·1000 + ms)·1000` inverts the canonical timecode of any whole-millisecond time |
| Subrip.TimecodeRoundTrip | library/extractor/src/test/java/com/google/android/exoplayer2/text/subrip/SubripParserTest.java:262-268 | a canonical timecode is the only canonical timecode of its time |
| Subrip.TypicalTimings | library/extractor/src/test/java/com/google/android/exoplayer2/text/subrip/SubripParserTest.java:240-268 | the timecodes of the test files give the start and end times the assertions expect (for the typical file 0, 1.234 s, 2.345 s, 3.456 s, 2:00:04.567 and 2:00:08.901), with missing hours and milliseconds counting as 0 |
| Subrip.Pieces | library/extractor/src/test/java/com/google/android/exoplayer2/text/subrip/SubripParserTest.java:213-221 | a line is cut into at most one piece per character, and only the empty line gives no pieces |
| Subrip.PiecesRoundTrip | library/extractor/src/test/java/com/google/android/exoplayer2/text/subrip/SubripParserTest.java:213-221 | cutting a line into literal characters and tags loses nothing |
| Subrip.PiecesTagsWellFormed | library/extractor/src/test/java/com/google/android/exoplayer2/text/subrip/SubripParserTest.java:213-221 | every tag cut from a line starts with `{\` and ends at the first `}` after that |
| Subrip.NoTagOpenerMeansLiteral | library/extractor/src/test/java/com/google/android/exoplayer2/text/subrip/SubripParserTest.java:213-221 | a line in which no `{` is directly followed by a backslash has no tags, and its text is the line itself |
| Subrip.TagIsCut | library/extractor/src/test/java/com/google/android/exoplayer2/text/subrip/SubripParserTest.java:213-221 | a closed `{\…}` tag after a prefix that opens no tag is cut out: the text is the prefix followed by the text after the tag, and the tag is listed before the later tags |
| Subrip.AlignmentTagIsFound | library/extractor/src/test/java/com/google/android/exoplayer2/text/subrip/SubripParserTest.java:222-230 | a line opening with `{\anN}`, N in 1..9, has that tag first among its tags and alignment N |
| Subrip.AlignedLinePlacesCue | library/extractor/src/test/java/com/google/android/exoplayer2/text/subrip/SubripParserTest.java:222-230 | a block whose first line opens with `{\anN}` is placed with the anchors and fractions of entry N of the table |
| Subrip.SpacedBraceIsText | library/extractor/src/test/java/com/google/android/exoplayer2/text/subrip/SubripParserTest.java:218-219 | `{ \an2}`, with a space after the brace, stays in the text |
| Subrip.LineAnchor | library/extractor/src/test/java/com/google/android/exoplayer2/text/subrip/SubripParserTest.java:222-230 | line anchor END for `{\an1}` to `{\an3}`, MIDDLE for 4 to 6, START for 7 to 9 |
| Subrip.PositionAnchor | library/extractor/src/test/java/com/google/android/exoplayer2/text/subrip/SubripParserTest.java:222-230 | position anchor START, MIDDLE or END as (N − 1) mod 3 is 0, 1 or 2 |
| Subrip.KeypadPosition | library/extractor/src/test/java/com/google/android/exoplayer2/text/subrip/SubripParserTest.java:222-230 | every pair of anchors is the pair of some N in 1..9 |
| Subrip.AnchorTableInverse | library/extractor/src/test/java/com/google/android/exoplayer2/text/subrip/SubripParserTest.java:222-230 | the pair of anchors determines N: the table is one-to-one |
| Subrip.FirstAlignment | library/extractor/src/test/java/com/google/android/exoplayer2/text/subrip/SubripParserTest.java:222-230 | an alignment is found exactly when some tag is `{\anN}` with N in 1..9, and it is one of those tags |
| Subrip.AlignmentFor | library/extractor/src/test/java/com/google/android/exoplayer2/text/subrip/SubripParserTest.java:270-281 | fraction line type, and line and position equal the fraction of their anchors |
| Subrip.BlockCueAlignment | library/extractor/src/test/java/com/google/android/exoplayer2/text/subrip/SubripParserTest.java:270-281 | a cue with an alignment tag has that entry of the table as anchors, fraction line type, and the fractions of its anchors |
| Subrip.BlockCue | library/extractor/src/test/java/com/google/android/exoplayer2/text/subrip/SubripParserTest.java:213-221 | the cue's text is its lines, each with its `{\…}` tags cut out (as `TagIsCut` shows), joined by newlines, and it is placed exactly when one of its tags is an alignment tag |
| Subrip.BlockEntries | library/extractor/src/test/java/com/google/android/exoplayer2/text/subrip/SubripParserTest.java:66-71 | a kept block yields two entries, a dropped block none |
| Subrip.KeptBlockTiming | library/extractor/src/test/java/com/google/android/exoplayer2/text/subrip/SubripParserTest.java:249-268 | a cue starts at its start timecode and lasts until its end timecode (duration = end − start), and the entry after it starts at the end time |
| Subrip.Parse | library/extractor/src/test/java/com/google/android/exoplayer2/text/subrip/SubripParserTest.java:61-72 | the parser gives exactly two entries for every kept block, and none for a dropped one |
| Subrip.ParseEmpty | library/extractor/src/test/java/com/google/android/exoplayer2/text/subrip/SubripParserTest.java:51-59 | an empty file gives no entries and no error |
| Subrip.ParseLayout | library/extractor/src/test/java/com/google/android/exoplayer2/text/subrip/SubripParserTest.java:61-72 | two entries per kept block, with the cue at the even index and, right after it, the entry at its end time |
| Subrip.ParseAppend | library/extractor/src/test/java/com/google/android/exoplayer2/text/subrip/SubripParserTest.java:119-147 | the entries of consecutive runs of blocks are the entries of each run, in order |
| Subrip.DroppedBlockIsSkipped | library/extractor/src/test/java/com/google/android/exoplayer2/text/subrip/SubripParserTest.java:119-161 | a block without a sequence number, without a timing line or with a negative timecode is dropped, and its neighbours parse as if it were absent |
| Subrip.TruncatedBlockAddsNothing | library/extractor/src/test/java/com/google/android/exoplayer2/text/subrip/SubripParserTest.java:163-175 | a last block cut short before it is complete is dropped, so the file gives exactly the entries of the complete blocks (the four entries the test expects) |
| Subrip.TruncationKeepsEarlierCues | library/extractor/src/test/java/com/google/android/exoplayer2/text/subrip/SubripParserTest.java:163-175 | a file cut short keeps every entry of the complete blocks before the cut |
| MdtaMetadataEntry.WithDefaultLocale | library/container/src/main/java/com/google/android/exoplayer2/metadata/mp4/MdtaMetadataEntry.java:68-70 | the locale indicator is 0, and the other fields are stored as given |
| MdtaMetadataEntry.Equals | library/container/src/main/java/com/google/android/exoplayer2/metadata/mp4/MdtaMetadataEntry.java:87-100 | two entries are equal exactly when key, payload bytes, locale and type are all equal |
| MdtaMetadataEntry.EqualsIsEquivalence | library/container/src/main/java/com/google/android/exoplayer2/metadata/mp4/MdtaMetadataEntry.java:87-100 | equality is reflexive, symmetric and transitive |
| MdtaMetadataEntry.HashCode | library/container/src/main/java/com/google/android/exoplayer2/metadata/mp4/MdtaMetadataEntry.java:103-109 | `hashCode` is the `int` value of the exact fold `31·result + h` over key hash, value hash, locale and type, from 17 |
| MdtaMetadataEntry.HashFoldWrapsOnce | library/container/src/main/java/com/google/android/exoplayer2/metadata/mp4/MdtaMetadataEntry.java:103-109 | wrapping to `int` after every step of `31 * result + h` equals wrapping the exact polynomial once |
| MdtaMetadataEntry.HashCodeClosedForm | library/container/src/main/java/com/google/android/exoplayer2/metadata/mp4/MdtaMetadataEntry.java:102-110 | `hashCode` is the `int` value of 17·31⁴ + 31³·hash(key) + 31²·hash(value) + 31·locale + type |
| MdtaMetadataEntry.EqualEntriesHashEqually | library/container/src/main/java/com/google/android/exoplayer2/metadata/mp4/MdtaMetadataEntry.java:87-110 | equal entries have equal hashes |
| MdtaMetadataEntry.WriteToParcel | library/container/src/main/java/com/google/android/exoplayer2/metadata/mp4/MdtaMetadataEntry.java:134-140 | appends four values and keeps what was already written |
| MdtaMetadataEntry.ReadFromParcel | library/container/src/main/java/com/google/android/exoplayer2/metadata/mp4/MdtaMetadataEntry.java:80-85 | a successful read consumes exactly four values, which are what writing the entry it returns produces |
| MdtaMetadataEntry.ParcelRoundTrip | library/container/src/main/java/com/google/android/exoplayer2/metadata/mp4/MdtaMetadataEntry.java:80-85 | reading back what was written, whatever comes before or after, yields the same entry |
| MdtaMetadataEntry.ToString | library/container/src/main/java/com/google/android/exoplayer2/metadata/mp4/MdtaMetadataEntry.java:129 | the text is "mdta: key=", the key, ", value=" and the formatted value |
| MdtaMetadataEntry.FormattedValue | library/container/src/main/java/com/google/android/exoplayer2/metadata/mp4/MdtaMetadataEntry.java:113-127 | type 1 is formatted as UTF-8 text, 23 as a float, 67 as an integer, and any other type as hex |
| MdtaMetadataEntry.ToStringReadsBack | library/container/src/main/java/com/google/android/exoplayer2/metadata/mp4/MdtaMetadataEntry.java:129 | the `toString` text splits back, at the key's length, into exactly the key and the formatted value |
| Decimal.IntToStringRoundTrip | library/core/src/main/java/com/google/android/exoplayer2/ExoPlaybackException.java:307 | the decimal text of an integer reads back as that integer |
| ExoPlaybackException.BaseMessage | library/core/src/main/java/com/google/android/exoplayer2/ExoPlaybackException.java:298-320 | every type but renderer has one of the fixed messages; a renderer message starts with the renderer name, `" error"` and `", index="` |
| ExoPlaybackException.DeriveMessage | library/core/src/main/java/com/google/android/exoplayer2/ExoPlaybackException.java:290-325 | the message starts with the type's message; a non-empty custom message is appended after ": ", and otherwise the message is exactly the type's message |
| ExoPlaybackException.MessageNamesType | library/core/src/main/java/com/google/android/exoplayer2/ExoPlaybackException.java:298-320 | "Source error" for SOURCE, "Timeout error" for TIMEOUT, and "Unexpected runtime error" for UNEXPECTED and any unknown type; a renderer message is none of these |
| ExoPlaybackException.RendererMessageShape | library/core/src/main/java/com/google/android/exoplayer2/ExoPlaybackException.java:302-311 | a renderer message is longer than every fixed message |
| ExoPlaybackException.RendererIndexReadsBack | library/core/src/main/java/com/google/android/exoplayer2/ExoPlaybackException.java:302-311 | the renderer index sits in the message right after `", index="` and reads back as the index |
| ExoPlaybackException.Make | library/core/src/main/java/com/google/android/exoplayer2/ExoPlaybackException.java:259-287 | the message is derived from the fields, and every field is stored as given |
| ExoPlaybackException.MakeDefault | library/core/src/main/java/com/google/android/exoplayer2/ExoPlaybackException.java:170-181 | no renderer name or format, `FORMAT_HANDLED`, undefined timeout operation, not recoverable |
| ExoPlaybackException.CreateForSource | library/core/src/main/java/com/google/android/exoplayer2/ExoPlaybackException.java:130-132 | type SOURCE, `INDEX_UNSET`, the factory defaults, message "Source error" |
| ExoPlaybackException.CreateForRenderer | library/core/src/main/java/com/google/android/exoplayer2/ExoPlaybackException.java:156-158 | type RENDERER with the given index, and the factory defaults |
| ExoPlaybackException.CreateForUnexpected | library/core/src/main/java/com/google/android/exoplayer2/ExoPlaybackException.java:166-168 | type UNEXPECTED, `INDEX_UNSET`, the factory defaults, message "Unexpected runtime error" |
| ExoPlaybackException.CreateForTimeout | library/core/src/main/java/com/google/android/exoplayer2/ExoPlaybackException.java:220-232 | type TIMEOUT with the given operation, `INDEX_UNSET`, the other factory defaults, message "Timeout error" |
| ExoPlaybackException.GetSourceException | library/core/src/main/java/com/google/android/exoplayer2/ExoPlaybackException.java:188-191 | the cause exactly when the type is SOURCE, otherwise an illegal-state failure |
| ExoPlaybackException.GetRendererException | library/core/src/main/java/com/google/android/exoplayer2/ExoPlaybackException.java:198-201 | the cause exactly when the type is RENDERER, otherwise an illegal-state failure |
| ExoPlaybackException.GetUnexpectedException | library/core/src/main/java/com/google/android/exoplayer2/ExoPlaybackException.java:208-211 | the cause exactly when the type is UNEXPECTED, otherwise an illegal-state failure |
| ExoPlaybackException.FactoriesMatchGetters | library/core/src/main/java/com/google/android/exoplayer2/ExoPlaybackException.java:130-211 | each factory's exception answers its own getter with its cause and fails every other getter |

## Left out

- `SubripParser.java`, `C.java`, `RendererCapabilities.java`, `Cue.java`, `WebvttCueParser.java` and `ParsableByteArray.java` are not part of this model. The constants taken from them are:
  - `TIME_UNSET = Long.MIN_VALUE + 1`;
  - `LENGTH_UNSET = INDEX_UNSET = -1`;
  - `FORMAT_HANDLED = 4`.
- The SubRip line lexer, its regular expressions, character-set detection (byte order marks, UTF-16LE/BE) and the trimming of lines are left out. The model starts from a file already cut into blocks (`Subrip.Block`).
- Subrip: `parse(bytes, offset, length)` over a part of a file is left out. It depends on the lexer cutting blocks from a byte range.
- Subrip.TimecodeUs: times and durations (`endUs - startUs`) are unbounded integers. Java computes them as `long`, which wraps for timecodes of roughly 2.6·10⁹ hours or more; that wrap-around is not modelled, so the non-negative result holds only below it.
- Subrip.Entry: the entry after each cue is modelled only by its start time, because that is all the assertions fix about it.
- Subrip.BlockCue: emphasis markup (`<b>`, `<i>`, `<u>` and their closing tags) is not modelled. It stays in `text` as literal characters, so `text` is exact only for lines without such markup.
- Subrip.Pieces: a tag is taken to be `{\` up to the first following `}`. This is the narrowest rule that agrees with every assertion on tags. The parser's own regular expression is not part of this model.
- `getFractionalPositionForAnchorType` is a parameter: its constants are not part of this model.
- Mp4WebvttParser.ParseCueBoxChildren, Mp4WebvttParser.ParseBoxes: the model stops with `OutsideModel` where `ParsableByteArray` would be asked to read or skip past its limit, or to skip a negative count. It makes no prediction about those inputs. Box sizes 0 and 1 (box to end of file, 64-bit size) get no special meaning, as in the source.
- Mp4WebvttParser: the UTF-8 decode, `trim`, `parseCueSettingsList`, `parseCueText`, `newCueForText` and `Cue.Builder` are uninterpreted collaborators. Each child's payload is decoded only if it is the last of its type. This is the same result as long as the collaborators are pure functions.
- MdtaMetadataEntry.HashCodeClosedForm: `String.hashCode` and `Arrays.hashCode` are parameters, not their Java definitions.
- MdtaMetadataEntry.Equals: Java's `equals` also answers false for `null` and for an object of another class. The typed model compares two entries only, so that case is not expressed.
- MdtaMetadataEntry.ReadFromParcel: only the order and kind of the four values are modelled. Android `Parcel` mechanics are left out, and so is what a read of the wrong kind does.
- MdtaMetadataEntry.FormattedValue: the formatting itself (`Util.fromUtf8Bytes`, `Util.toFloat` with `String.valueOf(float)`, `Util.toInteger`, `Util.toHexString`) is a parameter. Floating point is out of scope.
- The `Parcelable.Creator` and `describeContents` of `MdtaMetadataEntry` are left out. They hold no logic beyond the parcel constructor, which is modelled.
- ExoPlaybackException.Make: the time stamp is the parameter `nowMs` in place of `SystemClock.elapsedRealtime()`.
- ExoPlaybackException.Make: `mediaPeriodId` is left out. Every constructor visible here sets it to null.
- `Format.toString` is represented by the text it gives, and `getFormatSupportString` is a parameter.
- `DataSpec.toString` is left out. It relies on `Uri.toString` and `Arrays.toString`, which are foreign calls.
- `Uri` is modelled by its text.
- DataSpec.SubrangeSucceedsIff: stated for specs that already satisfy the constructor's checks, which holds for every spec that was built.

=== FILE: c.dfy ===
/**
  Constants of the player's `C` class that the modelled code uses. `C.java` is not part
  of this model; the values are those the player library defines.
*/
module C {

  /** `C.TIME_UNSET`: `Long.MIN_VALUE + 1`, a time or duration that is not known. */
  const TimeUnset: int := -0x7FFF_FFFF_FFFF_FFFF

  /** `C.LENGTH_UNSET`: a length that is not known. */
  const LengthUnset: int := -1

  /** `C.INDEX_UNSET`: an index that is not set. */
  const IndexUnset: int := -1

  /** `C.FORMAT_HANDLED`: the renderer supports the format. */
  const FormatHandled: int := 4
}

=== FILE: cues.dfy ===
/**
  The shared output model of the subtitle parsers: a timed group of cues, and the anchor
  and line types a cue's placement is expressed in.
*/
module Cues {

  /** `CuesWithTiming`: cues shown from `startTimeUs` for `durationUs` (either may be `C.TimeUnset`). */
  datatype CuesWithTiming<Cue> = CuesWithTiming(cues: seq<Cue>, startTimeUs: int, durationUs: int)

  /** `Cue.ANCHOR_TYPE_START`, `_MIDDLE`, `_END`. */
  datatype AnchorType = AnchorStart | AnchorMiddle | AnchorEnd

  /** `Cue.LINE_TYPE_FRACTION`, `Cue.LINE_TYPE_NUMBER`. */
  datatype LineType = LineTypeFraction | LineTypeNumber
}

=== FILE: data_spec.dfy ===
/**
  `DataSpec`: an immutable description of a region of data to read: where it comes
  from (`uri`, HTTP method and body), where it starts (`absoluteStreamPosition` in the
  full stream, `position` within the uri), how long it is, a cache key and request flags.

  Every constructor of the Java class funnels into one canonical constructor that checks
  its arguments with `Assertions.checkArgument`; here each constructor is a function
  returning `Failure(IllegalArgument)` where the Java throws.
*/
module DataSpec {
  import opened Wrappers
  import opened JavaInt
  import C

  const FlagAllowGzip: int32 := 1
  const FlagAllowCachingUnknownLength: int32 := 2

  const HttpMethodGet: int32 := 1
  const HttpMethodPost: int32 := 2
  const HttpMethodHead: int32 := 3

  /** An `android.net.Uri`; the model only stores and compares it. */
  datatype Uri = Uri(text: string)

  datatype DataSpecError =
    /** An `Assertions.checkArgument` of the canonical constructor failed. */
    | IllegalArgument
    /** `getStringForHttpMethod` threw `AssertionError(httpMethod)`. */
    | UnknownHttpMethod(httpMethod: int32)

  /**
    The fields of a `DataSpec`. `httpBody` is `None` for a null body; `postBody` is the
    deprecated alias the constructor sets to the same array.
  */
  datatype DataSpec = DataSpec(
    uri: Uri,
    httpMethod: int32,
    httpBody: Option<seq<uint8>>,
    postBody: Option<seq<uint8>>,
    absoluteStreamPosition: int64,
    position: int64,
    length: int64,
    key: Option<string>,
    flags: int32)

  /** The arguments the canonical constructor accepts. */
  predicate ValidRange(absoluteStreamPosition: int, position: int, length: int) {
    && absoluteStreamPosition >= 0
    && position >= 0
    && (length > 0 || length == C.LengthUnset)
  }

  /** What holds of every `DataSpec` the constructor has built. */
  predicate Valid(d: DataSpec) {
    && ValidRange(d.absoluteStreamPosition, d.position, d.length)
    && (d.httpBody.Some? ==> |d.httpBody.value| > 0)
    && d.postBody == d.httpBody
  }

  /** The canonical constructor `DataSpec(uri, httpMethod, httpBody, absoluteStreamPosition, position, length, key, flags)`. */
  function Create(uri: Uri, httpMethod: int32, httpBody: Option<seq<uint8>>,
                  absoluteStreamPosition: int64, position: int64, length: int64,
                  key: Option<string>, flags: int32): (r: Result<DataSpec, DataSpecError>)
    ensures r.Success? <==> ValidRange(absoluteStreamPosition, position, length)
    ensures r.Failure? ==> r.error == IllegalArgument
    ensures r.Success? ==> Valid(r.value)
    // A null or empty body is stored as null; any other body is stored as given.
    ensures r.Success? ==> (r.value.httpBody.Some? <==> httpBody.Some? && |httpBody.value| > 0)
    ensures r.Success? && r.value.httpBody.Some? ==> r.value.httpBody == httpBody
    ensures r.Success? ==>
      && r.value.uri == uri && r.value.httpMethod == httpMethod
      && r.value.absoluteStreamPosition == absoluteStreamPosition && r.value.position == position
      && r.value.length == length && r.value.key == key && r.value.flags == flags
  {
    if !ValidRange(absoluteStreamPosition, position, length) then Failure(IllegalArgument)
    else
      var body := if httpBody.Some? && |httpBody.value| != 0 then httpBody else None;
      Success(DataSpec(uri, httpMethod, body, body, absoluteStreamPosition, position, length, key, flags))
  }

  /**
    `DataSpec(uri, postBody, absoluteStreamPosition, position, length, key, flags)`: the
    method is POST exactly when a body is given, even an empty one, which is then stored
    as null.
  */
  function WithPostBody(uri: Uri, postBody: Option<seq<uint8>>,
                        absoluteStreamPosition: int64, position: int64, length: int64,
                        key: Option<string>, flags: int32): (r: Result<DataSpec, DataSpecError>)
    ensures r.Success? <==> ValidRange(absoluteStreamPosition, position, length)
    ensures r.Success? ==> (r.value.httpMethod == HttpMethodPost <==> postBody.Some?)
    ensures r.Success? ==> (r.value.httpMethod == HttpMethodGet <==> postBody.None?)
    ensures r.Success? ==> r.value.httpBody == (if postBody == Some([]) then None else postBody)
    ensures r.Success? ==>
      && r.value.uri == uri && r.value.absoluteStreamPosition == absoluteStreamPosition
      && r.value.position == position && r.value.length == length
      && r.value.key == key && r.value.flags == flags
  {
    Create(uri, if postBody.Some? then HttpMethodPost else HttpMethodGet, postBody,
           absoluteStreamPosition, position, length, key, flags)
  }

  /** `DataSpec(uri, absoluteStreamPosition, position, length, key, flags)`: a GET without a body. */
  function WithPositions(uri: Uri, absoluteStreamPosition: int64, position: int64, length: int64,
                         key: Option<string>, flags: int32): (r: Result<DataSpec, DataSpecError>)
    ensures r.Success? <==> ValidRange(absoluteStreamPosition, position, length)
    ensures r.Success? ==> r.value.httpMethod == HttpMethodGet && r.value.httpBody.None?
    ensures r.Success? ==>
      && r.value.uri == uri && r.value.absoluteStreamPosition == absoluteStreamPosition
      && r.value.position == position && r.value.length == length
      && r.value.key == key && r.value.flags == flags
  {
    WithPostBody(uri, None, absoluteStreamPosition, position, length, key, flags)
  }

  /** `DataSpec(uri, absoluteStreamPosition, length, key, flags)`: the position within the uri is the absolute one. */
  function AtPositionWithFlags(uri: Uri, absoluteStreamPosition: int64, length: int64,
                               key: Option<string>, flags: int32): (r: Result<DataSpec, DataSpecError>)
    ensures r.Success? <==> ValidRange(absoluteStreamPosition, absoluteStreamPosition, length)
    ensures r.Success? ==> r.value.position == r.value.absoluteStreamPosition == absoluteStreamPosition
    ensures r.Success? ==> r.value.flags == flags
    ensures r.Success? ==>
      && r.value.uri == uri && r.value.length == length && r.value.key == key
      && r.value.httpMethod == HttpMethodGet && r.value.httpBody.None?
  {
    WithPositions(uri, absoluteStreamPosition, absoluteStreamPosition, length, key, flags)
  }

  /** `DataSpec(uri, absoluteStreamPosition, length, key)`: as above, with no flags. */
  function AtPosition(uri: Uri, absoluteStreamPosition: int64, length: int64, key: Option<string>)
    : (r: Result<DataSpec, DataSpecError>)
    ensures r.Success? <==> ValidRange(absoluteStreamPosition, absoluteStreamPosition, length)
    ensures r.Success? ==> r.value.position == r.value.absoluteStreamPosition == absoluteStreamPosition
    ensures r.Success? ==> r.value.flags == 0
    ensures r.Success? ==>
      && r.value.uri == uri && r.value.length == length && r.value.key == key
      && r.value.httpMethod == HttpMethodGet && r.value.httpBody.None?
  {
    AtPositionWithFlags(uri, absoluteStreamPosition, length, key, 0)
  }

  /**
    Every convenience constructor is the canonical one with its defaults filled in: no
    body means GET, a body (even an empty one) means POST, the position defaults to the
    absolute position and the flags to 0.
  */
  lemma ConstructorsDelegate(uri: Uri, body: seq<uint8>, absoluteStreamPosition: int64, position: int64,
                             length: int64, key: Option<string>, flags: int32)
    ensures WithPostBody(uri, Some(body), absoluteStreamPosition, position, length, key, flags)
         == Create(uri, HttpMethodPost, Some(body), absoluteStreamPosition, position, length, key, flags)
    ensures WithPositions(uri, absoluteStreamPosition, position, length, key, flags)
         == Create(uri, HttpMethodGet, None, absoluteStreamPosition, position, length, key, flags)
    ensures AtPositionWithFlags(uri, absoluteStreamPosition, length, key, flags)
         == Create(uri, HttpMethodGet, None, absoluteStreamPosition, absoluteStreamPosition, length, key, flags)
    ensures AtPosition(uri, absoluteStreamPosition, length, key)
         == Create(uri, HttpMethodGet, None, absoluteStreamPosition, absoluteStreamPosition, length, key, 0)
  {
  }

  /**
    `DataSpec(uri, flags)`: the whole of `uri` from position 0, of unset length and
    without a key. It cannot fail.
  */
  function OfUriWithFlags(uri: Uri, flags: int32): (d: DataSpec)
    ensures Valid(d)
    ensures d.uri == uri && d.flags == flags && d.key.None?
    ensures d.absoluteStreamPosition == 0 && d.position == 0 && d.length == C.LengthUnset
    ensures d.httpMethod == HttpMethodGet && d.httpBody.None?
  {
    AtPositionWithFlags(uri, 0, C.LengthUnset, None, flags).value
  }

  /** `DataSpec(uri)`: as above, with no flags. */
  function OfUri(uri: Uri): (d: DataSpec)
    ensures Valid(d) && d.uri == uri && d.flags == 0 && d.key.None?
    ensures d.absoluteStreamPosition == 0 && d.position == 0 && d.length == C.LengthUnset
    ensures d.httpMethod == HttpMethodGet && d.httpBody.None?
  {
    OfUriWithFlags(uri, 0)
  }

  // ---------------------------------------------------------------------------
  // Flags.

  function Pow2(n: nat): (r: nat)
    ensures r >= 1
    ensures n > 0 ==> r % 2 == 0
  {
    if n == 0 then 1 else 2 * Pow2(n - 1)
  }

  /** Bit `i` of `x`, counting from the least significant. */
  function Bit(x: nat, i: nat): bool {
    if i == 0 then x % 2 == 1 else Bit(x / 2, i - 1)
  }

  /** Java's `&` on the low `width` bits of two non-negative values. */
  function BitAnd(a: nat, b: nat, width: nat): (r: nat)
    ensures r < Pow2(width)
    ensures b == 0 ==> r == 0
    ensures r <= b
  {
    if width == 0 then 0
    else (if a % 2 == 1 && b % 2 == 1 then 1 else 0) + 2 * BitAnd(a / 2, b / 2, width - 1)
  }

  /** The 32 bits of an `int`, read as an unsigned value. */
  function Unsigned(x: int32): (u: nat)
    ensures u < TwoTo32
    ensures (x - u) % TwoTo32 == 0
  {
    x % TwoTo32
  }

  lemma {:induction false} Pow2Add(m: nat, n: nat)
    ensures Pow2(m + n) == Pow2(m) * Pow2(n)
    decreases m
  {
    if m > 0 {
      Pow2Add(m - 1, n);
      DoubleProduct(Pow2(m - 1), Pow2(n));
    }
  }

  lemma DoubleProduct(a: nat, b: nat)
    ensures 2 * (a * b) == (2 * a) * b
  {
  }

  lemma Pow2Of32()
    ensures Pow2(32) == TwoTo32
  {
    assert Pow2(2) == 4;
    Pow2Add(2, 2);
    assert Pow2(4) == 16;
    Pow2Add(4, 4);
    assert Pow2(8) == 256;
    Pow2Add(8, 8);
    assert Pow2(16) == 65536;
    Pow2Add(16, 16);
  }

  /** Every one of the low `width` bits of `b` is a bit of `a`. */
  predicate BitsWithin(b: nat, a: nat, width: nat) {
    forall i :: 0 <= i < width ==> (Bit(b, i) ==> Bit(a, i))
  }

  /** The `&` of `a` and `b` is `b` exactly when every bit of `b` is a bit of `a`. */
  lemma {:induction false} BitAndSubset(a: nat, b: nat, width: nat)
    requires b < Pow2(width)
    ensures BitAnd(a, b, width) == b <==> BitsWithin(b, a, width)
    decreases width
  {
    if width == 0 {
    } else {
      var low := if a % 2 == 1 && b % 2 == 1 then 1 else 0;
      var high := BitAnd(a / 2, b / 2, width - 1);
      assert BitAnd(a, b, width) == low + 2 * high;
      assert b == b % 2 + 2 * (b / 2);
      BitAndSubset(a / 2, b / 2, width - 1);
      assert (low + 2 * high == b) <==> (low == b % 2 && high == b / 2);
      assert (low == b % 2) <==> (Bit(b, 0) ==> Bit(a, 0));
      forall i | 0 < i < width
        ensures Bit(b, i) == Bit(b / 2, i - 1) && Bit(a, i) == Bit(a / 2, i - 1)
      {
      }
      if BitAnd(a, b, width) == b {
        assert high == b / 2;
        assert Bit(b, 0) ==> Bit(a, 0);
        forall i | 0 <= i < width
          ensures Bit(b, i) ==> Bit(a, i)
        {
          if i > 0 {
            assert Bit(b / 2, i - 1) ==> Bit(a / 2, i - 1);
          }
        }
      } else if BitsWithin(b, a, width) {
        assert Bit(b, 0) ==> Bit(a, 0);
        forall j | 0 <= j < width - 1
          ensures Bit(b / 2, j) ==> Bit(a / 2, j)
        {
          assert Bit(b, j + 1) ==> Bit(a, j + 1);
        }
        assert false;
      }
    }
  }

  /**
    `isFlagSet(flag)`: `(flags & flag) == flag` on the 32 bits of each. It holds exactly
    when every bit of `flag` is set in the flags; in particular the empty flag is always set.
  */
  function IsFlagSet(d: DataSpec, flag: int32): (r: bool)
    ensures r <==> BitsWithin(Unsigned(flag), Unsigned(d.flags), 32)
    ensures flag == 0 ==> r
  {
    Pow2Of32();
    BitAndSubset(Unsigned(d.flags), Unsigned(flag), 32);
    BitAnd(Unsigned(d.flags), Unsigned(flag), 32) == Unsigned(flag)
  }

  /** Zero has no bit set. */
  lemma ZeroHasNoBits(i: nat)
    ensures !Bit(0, i)
  {
    if i > 0 {
      ZeroHasNoBits(i - 1);
    }
  }

  /**
    Each of the two defined flags is one bit of the flags: `FLAG_ALLOW_GZIP` is bit 0 and
    `FLAG_ALLOW_CACHING_UNKNOWN_LENGTH` is bit 1, so each tests as set independently of the other.
  */
  lemma DefinedFlagBits(d: DataSpec)
    ensures IsFlagSet(d, FlagAllowGzip) <==> Bit(Unsigned(d.flags), 0)
    ensures IsFlagSet(d, FlagAllowCachingUnknownLength) <==> Bit(Unsigned(d.flags), 1)
  {
    forall i | 0 < i < 32
      ensures !Bit(1, i)
    {
      ZeroHasNoBits(i - 1);
    }
    forall i | 0 <= i < 32 && i != 1
      ensures !Bit(2, i)
    {
      if i > 1 {
        ZeroHasNoBits(i - 2);
      }
    }
  }

  // ---------------------------------------------------------------------------
  // HTTP methods.

  /** `getStringForHttpMethod`: the upper-case method name; any other value is an `AssertionError`. */
  function HttpMethodName(httpMethod: int32): (r: Result<string, DataSpecError>)
    ensures r.Success? <==> httpMethod in {HttpMethodGet, HttpMethodPost, HttpMethodHead}
    ensures r.Failure? ==> r.error == UnknownHttpMethod(httpMethod)
  {
    if httpMethod == HttpMethodGet then Success("GET")
    else if httpMethod == HttpMethodPost then Success("POST")
    else if httpMethod == HttpMethodHead then Success("HEAD")
    else Failure(UnknownHttpMethod(httpMethod))
  }

  /** The method an upper-case name stands for: the inverse of `HttpMethodName`. */
  function HttpMethodOfName(name: string): (m: Option<int32>)
    ensures m.Some? ==> HttpMethodName(m.value) == Success(name)
  {
    if name == "GET" then Some(HttpMethodGet)
    else if name == "POST" then Some(HttpMethodPost)
    else if name == "HEAD" then Some(HttpMethodHead)
    else None
  }

  /** Every name `HttpMethodName` gives back names its method, so distinct methods get distinct names. */
  lemma HttpMethodNameInverse(httpMethod: int32)
    ensures HttpMethodName(httpMethod).Success? ==> HttpMethodOfName(HttpMethodName(httpMethod).value) == Some(httpMethod)
  {
  }

  /** `getHttpMethodString()`. */
  function HttpMethodString(d: DataSpec): (r: Result<string, DataSpecError>)
    ensures r.Success? <==> d.httpMethod in {HttpMethodGet, HttpMethodPost, HttpMethodHead}
    ensures r.Success? ==> HttpMethodOfName(r.value) == Some(d.httpMethod)
  {
    HttpMethodName(d.httpMethod)
  }

  // ---------------------------------------------------------------------------
  // Derived specs.

  /**
    `subrange(offset, length)`: the same spec when nothing would change, else a new spec
    whose positions are both shifted by `offset` in Java `long` arithmetic.
  */
  function Subrange(d: DataSpec, offset: int64, length: int64): (r: Result<DataSpec, DataSpecError>)
    ensures offset == 0 && d.length == length ==> r == Success(d)
    ensures !(offset == 0 && d.length == length) ==>
      (r.Success? <==> ValidRange(WrapInt64(d.absoluteStreamPosition + offset), WrapInt64(d.position + offset), length))
    ensures r.Success? ==> r.value.length == length
    ensures r.Success? && !(offset == 0 && d.length == length) ==>
      && r.value.absoluteStreamPosition == WrapInt64(d.absoluteStreamPosition + offset)
      && r.value.position == WrapInt64(d.position + offset)
    ensures r.Success? ==>
      && r.value.uri == d.uri && r.value.httpMethod == d.httpMethod && r.value.key == d.key
      && r.value.flags == d.flags
    ensures r.Success? && Valid(d) ==> Valid(r.value) && r.value.httpBody == d.httpBody
  {
    if offset == 0 && d.length == length then Success(d)
    else
      Create(d.uri, d.httpMethod, d.httpBody,
             WrapInt64(d.absoluteStreamPosition + offset), WrapInt64(d.position + offset),
             length, d.key, d.flags)
  }

  /**
    On a spec the constructor built, a subrange that succeeds has not wrapped around:
    both positions moved by exactly `offset`, so the distance between them is kept.
  */
  lemma SubrangeShiftsPositions(d: DataSpec, offset: int64, length: int64)
    requires Valid(d)
    requires Subrange(d, offset, length).Success?
    ensures var s := Subrange(d, offset, length).value;
      && s.absoluteStreamPosition == d.absoluteStreamPosition + offset
      && s.position == d.position + offset
      && s.position - s.absoluteStreamPosition == d.position - d.absoluteStreamPosition
  {
    if !(offset == 0 && d.length == length) {
      NonNegativeWrapIsExact(d.absoluteStreamPosition, offset);
      NonNegativeWrapIsExact(d.position, offset);
    }
  }

  /** A non-negative `long` plus any `long` is exact whenever the wrapped sum is non-negative. */
  lemma NonNegativeWrapIsExact(x: int64, offset: int64)
    requires x >= 0
    requires WrapInt64(x + offset) >= 0
    ensures WrapInt64(x + offset) == x + offset
  {
  }

  /** The requested shift succeeds exactly when it keeps both positions within `[0, Long.MAX_VALUE]`. */
  lemma SubrangeSucceedsIff(d: DataSpec, offset: int64, length: int64)
    requires Valid(d)
    requires !(offset == 0 && d.length == length)
    ensures Subrange(d, offset, length).Success? <==>
      && 0 <= d.absoluteStreamPosition + offset <= Int64Max
      && 0 <= d.position + offset <= Int64Max
      && (length > 0 || length == C.LengthUnset)
  {
    WrapAboveMaxIsNegative(d.absoluteStreamPosition + offset);
    WrapAboveMaxIsNegative(d.position + offset);
  }

  lemma WrapAboveMaxIsNegative(x: int)
    requires Int64Min <= x <= 2 * Int64Max
    ensures x > Int64Max ==> WrapInt64(x) < 0
    ensures IsInt64(x) ==> WrapInt64(x) == x
  {
    if x > Int64Max {
      assert x % TwoTo64 == x;
    } else if x < 0 {
      assert x % TwoTo64 == x + TwoTo64;
    } else {
      assert x % TwoTo64 == x;
    }
  }

  /** `subrange(offset)`: from `offset` to the end; an unset length stays unset. */
  function SubrangeFrom(d: DataSpec, offset: int64): (r: Result<DataSpec, DataSpecError>)
    ensures r.Success? && d.length == C.LengthUnset ==> r.value.length == C.LengthUnset
    ensures r.Success? && d.length != C.LengthUnset ==> r.value.length == WrapInt64(d.length - offset)
  {
    Subrange(d, offset, if d.length == C.LengthUnset then C.LengthUnset else WrapInt64(d.length - offset))
  }

  /**
    On a spec of known length, a subrange from an offset strictly inside it keeps the
    end where it was; a subrange from the very end would be empty and is refused.
  */
  lemma SubrangeFromKeepsEnd(d: DataSpec, offset: int64)
    requires Valid(d) && d.length != C.LengthUnset
    requires 0 <= offset < d.length
    requires d.absoluteStreamPosition + offset <= Int64Max && d.position + offset <= Int64Max
    ensures SubrangeFrom(d, offset).Success?
    ensures var s := SubrangeFrom(d, offset).value;
      s.absoluteStreamPosition + s.length == d.absoluteStreamPosition + d.length
  {
    assert WrapInt64(d.length - offset) == d.length - offset;
    if offset != 0 {
      SubrangeSucceedsIff(d, offset, d.length - offset);
      SubrangeShiftsPositions(d, offset, d.length - offset);
    }
  }

  lemma SubrangeFromEndFails(d: DataSpec)
    requires Valid(d) && d.length != C.LengthUnset
    ensures SubrangeFrom(d, d.length).Failure?
  {
    assert WrapInt64(d.length - d.length) == 0;
  }

  /** `withUri(uri)`: the same spec for another uri; it cannot fail on a spec the constructor built. */
  function WithUri(d: DataSpec, uri: Uri): (r: Result<DataSpec, DataSpecError>)
    ensures Valid(d) ==> r == Success(d.(uri := uri))
    ensures r.Success? <==> ValidRange(d.absoluteStreamPosition, d.position, d.length)
  {
    Create(uri, d.httpMethod, d.httpBody, d.absoluteStreamPosition, d.position, d.length, d.key, d.flags)
  }
}

=== FILE: exo_playback_exception.dfy ===
/**
  Decimal text of Java integers, as string concatenation renders an `int`
  (`String.valueOf(int)`), with the reading it is the inverse of.
*/
module Decimal {
  import opened Wrappers

  function DigitChar(d: int): (c: char)
    requires 0 <= d < 10
    ensures '0' <= c <= '9'
  {
    "0123456789"[d]
  }

  function DigitValue(c: char): int
    requires '0' <= c <= '9'
  {
    c as int - '0' as int
  }

  predicate IsDigits(s: string) {
    forall i :: 0 <= i < |s| ==> '0' <= s[i] <= '9'
  }

  /** The decimal digits of `n`, most significant first, without leading zeros. */
  function NatToString(n: nat): (s: string)
    ensures |s| > 0 && IsDigits(s)
    ensures |s| > 1 ==> s[0] != '0'
    decreases n
  {
    if n < 10 then [DigitChar(n)] else NatToString(n / 10) + [DigitChar(n % 10)]
  }

  /** The value of a run of decimal digits. */
  function DigitsValue(s: string): nat
    requires IsDigits(s)
    decreases |s|
  {
    if |s| == 0 then 0 else DigitsValue(s[..|s| - 1]) * 10 + DigitValue(s[|s| - 1])
  }

  /** `String.valueOf(n)`: a minus sign for a negative value, then the digits of its magnitude. */
  function IntToString(n: int): (s: string)
    ensures |s| > 0
    ensures n < 0 <==> s[0] == '-'
  {
    if n < 0 then "-" + NatToString(-n) else NatToString(n)
  }

  /** Reading decimal text back: an optional minus sign followed by at least one digit. */
  function ParseInt(s: string): (r: Option<int>)
  {
    if |s| > 0 && s[0] == '-' then
      if |s| > 1 && IsDigits(s[1..]) then Some(0 - DigitsValue(s[1..]) as int) else None
    else if |s| > 0 && IsDigits(s) then Some(DigitsValue(s) as int)
    else None
  }

  lemma {:induction false} DigitsOfNat(n: nat)
    ensures DigitsValue(NatToString(n)) == n
    decreases n
  {
    var s := NatToString(n);
    if n < 10 {
      assert s[..0] == [];
    } else {
      assert s[..|s| - 1] == NatToString(n / 10);
      DigitsOfNat(n / 10);
    }
  }

  lemma ParseNegative(n: int, digits: string)
    requires n < 0 && digits == NatToString(-n) && DigitsValue(digits) == -n
    ensures ParseInt(IntToString(n)) == Some(n)
  {
    assert IntToString(n) == "-" + digits;
    assert ("-" + digits)[1..] == digits;
  }

  lemma ParseNonNegative(n: int, digits: string)
    requires n >= 0 && digits == NatToString(n) && DigitsValue(digits) == n
    ensures ParseInt(IntToString(n)) == Some(n)
  {
    assert IntToString(n) == digits;
    assert '0' <= digits[0] <= '9';
  }

  /** The text of an integer reads back as that integer. */
  lemma IntToStringRoundTrip(n: int)
    ensures ParseInt(IntToString(n)) == Some(n)
  {
    if n < 0 {
      DigitsOfNat(-n);
      ParseNegative(n, NatToString(-n));
    } else {
      DigitsOfNat(n);
      ParseNonNegative(n, NatToString(n));
    }
  }
}

/**
  `ExoPlaybackException`: a playback failure tagged with its type (source, renderer,
  unexpected or timeout), its cause, the renderer details and the timeout operation.
  Its message is derived from these when it is created.
*/
module ExoPlaybackException {
  import opened Wrappers
  import opened JavaInt
  import C
  import Decimal

  const TypeSource: int32 := 0
  const TypeRenderer: int32 := 1
  const TypeUnexpected: int32 := 2
  const TypeTimeout: int32 := 3

  const TimeoutOperationUndefined: int32 := 0
  const TimeoutOperationRelease: int32 := 1
  const TimeoutOperationSetForegroundMode: int32 := 2
  const TimeoutOperationDetachSurface: int32 := 3

  /** A `Format`, by the text its `toString` gives. */
  datatype Format = Format(text: string)

  /**
    The calls the message is built with that are not part of this model:
    `RendererCapabilities.getFormatSupportString`.
  */
  datatype MessageText = MessageText(formatSupportString: int32 -> string)

  /**
    The fields of the exception. `cause` stands for the `Throwable` given to a factory;
    `message` is the one passed to `Exception`'s constructor.
  */
  datatype ExoPlaybackException<Cause> = ExoPlaybackException(
    message: string,
    cause: Cause,
    errorType: int32,
    rendererName: Option<string>,
    rendererIndex: int32,
    rendererFormat: Option<Format>,
    rendererFormatSupport: int32,
    timeoutOperation: int32,
    timestampMs: int64,
    isRecoverable: bool)

  datatype AccessError =
    /** `Assertions.checkState` failed: the exception is of another type. */
    | IllegalState

  /** Java's rendering of a nullable string in a concatenation. */
  function NullableText(s: Option<string>): string {
    if s.Some? then s.value else "null"
  }

  /** The renderer message up to the index: `rendererName + " error" + ", index="`. */
  function RendererPrefix(rendererName: Option<string>): string {
    NullableText(rendererName) + " error" + ", index="
  }

  /** The renderer message after the index: the format and the format support. */
  function RendererSuffix(rendererFormat: Option<Format>, rendererFormatSupport: int32, k: MessageText): string {
    ", format=" + (if rendererFormat.Some? then rendererFormat.value.text else "null")
      + ", format_supported=" + k.formatSupportString(rendererFormatSupport)
  }

  /**
    The message of each type before any custom message is appended: a fixed text for
    every type but renderer, whose message names the renderer, its index and its format.
  */
  function BaseMessage(errorType: int32, rendererName: Option<string>, rendererIndex: int32,
                       rendererFormat: Option<Format>, rendererFormatSupport: int32, k: MessageText): (m: string)
    ensures errorType != TypeRenderer ==> m in {"Source error", "Timeout error", "Unexpected runtime error"}
    ensures errorType == TypeRenderer ==>
      var prefix := RendererPrefix(rendererName);
      |m| > |prefix| && m[..|prefix|] == prefix
  {
    if errorType == TypeSource then "Source error"
    else if errorType == TypeRenderer then
      RendererPrefix(rendererName) + Decimal.IntToString(rendererIndex)
        + RendererSuffix(rendererFormat, rendererFormatSupport, k)
    else if errorType == TypeTimeout then "Timeout error"
    else "Unexpected runtime error"
  }

  /**
    `deriveMessage`: the message of the type, followed by `": "` and the custom message
    when that is neither null nor empty.
  */
  function DeriveMessage(errorType: int32, customMessage: Option<string>, rendererName: Option<string>,
                         rendererIndex: int32, rendererFormat: Option<Format>, rendererFormatSupport: int32,
                         k: MessageText): (m: string)
    ensures var base := BaseMessage(errorType, rendererName, rendererIndex, rendererFormat, rendererFormatSupport, k);
      && |m| >= |base| && m[..|base|] == base
      && (customMessage.None? || customMessage == Some("") <==> m == base)
      && (customMessage.Some? && customMessage.value != "" ==> m[|base|..] == ": " + customMessage.value)
  {
    var base := BaseMessage(errorType, rendererName, rendererIndex, rendererFormat, rendererFormatSupport, k);
    if customMessage.Some? && customMessage.value != "" then base + ": " + customMessage.value else base
  }

  /**
    Without a custom message the message names the type: source, timeout and any type
    other than renderer each have their own fixed message.
  */
  lemma MessageNamesType(errorType: int32, rendererName: Option<string>, rendererIndex: int32,
                         rendererFormat: Option<Format>, rendererFormatSupport: int32, k: MessageText)
    ensures var m := DeriveMessage(errorType, None, rendererName, rendererIndex, rendererFormat, rendererFormatSupport, k);
      && (m == "Source error" <==> errorType == TypeSource)
      && (m == "Timeout error" <==> errorType == TypeTimeout)
      && (m == "Unexpected runtime error" <==> errorType != TypeSource && errorType != TypeRenderer && errorType != TypeTimeout)
  {
    var m := DeriveMessage(errorType, None, rendererName, rendererIndex, rendererFormat, rendererFormatSupport, k);
    if errorType == TypeRenderer {
      RendererMessageShape(rendererName, rendererIndex, rendererFormat, rendererFormatSupport, k);
    }
  }

  /** A renderer message is longer than every fixed message, so it is none of them. */
  lemma RendererMessageShape(rendererName: Option<string>, rendererIndex: int32,
                             rendererFormat: Option<Format>, rendererFormatSupport: int32, k: MessageText)
    ensures var m := BaseMessage(TypeRenderer, rendererName, rendererIndex, rendererFormat, rendererFormatSupport, k);
      && |m| > |"Unexpected runtime error"|
      && m != "Source error" && m != "Timeout error" && m != "Unexpected runtime error"
  {
    var m := BaseMessage(TypeRenderer, rendererName, rendererIndex, rendererFormat, rendererFormatSupport, k);
    assert |m| >= |" error"| + |", index="| + |", format="| + |", format_supported="|;
  }

  lemma MiddleOfConcat(head: string, middle: string, tail: string)
    ensures (head + middle + tail)[|head|..|head| + |middle|] == middle
  {
  }

  /** The renderer index written into a renderer message reads back as that index. */
  lemma RendererIndexReadsBack(rendererName: Option<string>, rendererIndex: int32,
                               rendererFormat: Option<Format>, rendererFormatSupport: int32, k: MessageText)
    ensures var m := BaseMessage(TypeRenderer, rendererName, rendererIndex, rendererFormat, rendererFormatSupport, k);
      && var start := |RendererPrefix(rendererName)|;
      && var digits := Decimal.IntToString(rendererIndex);
      && m[start..start + |digits|] == digits
      && Decimal.ParseInt(m[start..start + |digits|]) == Some(rendererIndex as int)
  {
    MiddleOfConcat(RendererPrefix(rendererName), Decimal.IntToString(rendererIndex),
                   RendererSuffix(rendererFormat, rendererFormatSupport, k));
    Decimal.IntToStringRoundTrip(rendererIndex);
  }

  /** The nine-argument private constructor: the message is derived, the time is `nowMs`. */
  function Make<Cause>(errorType: int32, cause: Cause, customMessage: Option<string>,
                       rendererName: Option<string>, rendererIndex: int32, rendererFormat: Option<Format>,
                       rendererFormatSupport: int32, timeoutOperation: int32, isRecoverable: bool,
                       nowMs: int64, k: MessageText): (e: ExoPlaybackException<Cause>)
    ensures e.message == DeriveMessage(errorType, customMessage, rendererName, rendererIndex,
                                       rendererFormat, rendererFormatSupport, k)
    ensures e.errorType == errorType && e.cause == cause && e.timestampMs == nowMs
    ensures e.rendererName == rendererName && e.rendererIndex == rendererIndex
    ensures e.rendererFormat == rendererFormat && e.rendererFormatSupport == rendererFormatSupport
    ensures e.timeoutOperation == timeoutOperation && e.isRecoverable == isRecoverable
  {
    ExoPlaybackException(
      DeriveMessage(errorType, customMessage, rendererName, rendererIndex, rendererFormat, rendererFormatSupport, k),
      cause, errorType, rendererName, rendererIndex, rendererFormat, rendererFormatSupport,
      timeoutOperation, nowMs, isRecoverable)
  }

  /** What every factory sets: no renderer name or format, a handled format, not recoverable, no custom message. */
  predicate FactoryDefaults<Cause>(e: ExoPlaybackException<Cause>, k: MessageText) {
    && e.rendererName.None?
    && e.rendererFormat.None?
    && e.rendererFormatSupport == C.FormatHandled
    && !e.isRecoverable
    && e.message == BaseMessage(e.errorType, None, e.rendererIndex, None, C.FormatHandled, k)
  }

  /** The three-argument private constructor. */
  function MakeDefault<Cause>(errorType: int32, cause: Cause, rendererIndex: int32, nowMs: int64, k: MessageText)
    : (e: ExoPlaybackException<Cause>)
    ensures FactoryDefaults(e, k)
    ensures e.errorType == errorType && e.cause == cause && e.rendererIndex == rendererIndex
    ensures e.timeoutOperation == TimeoutOperationUndefined && e.timestampMs == nowMs
  {
    Make(errorType, cause, None, None, rendererIndex, None, C.FormatHandled, TimeoutOperationUndefined, false, nowMs, k)
  }

  /** `createForSource(cause)`. */
  function CreateForSource<Cause>(cause: Cause, nowMs: int64, k: MessageText): (e: ExoPlaybackException<Cause>)
    ensures FactoryDefaults(e, k)
    ensures e.errorType == TypeSource && e.rendererIndex == C.IndexUnset
    ensures e.timeoutOperation == TimeoutOperationUndefined && e.message == "Source error"
  {
    MakeDefault(TypeSource, cause, C.IndexUnset, nowMs, k)
  }

  /** `createForRenderer(cause, rendererIndex)`. */
  function CreateForRenderer<Cause>(cause: Cause, rendererIndex: int32, nowMs: int64, k: MessageText)
    : (e: ExoPlaybackException<Cause>)
    ensures FactoryDefaults(e, k)
    ensures e.errorType == TypeRenderer && e.rendererIndex == rendererIndex
    ensures e.timeoutOperation == TimeoutOperationUndefined
  {
    MakeDefault(TypeRenderer, cause, rendererIndex, nowMs, k)
  }

  /** `createForUnexpected(cause)`. */
  function CreateForUnexpected<Cause>(cause: Cause, nowMs: int64, k: MessageText): (e: ExoPlaybackException<Cause>)
    ensures FactoryDefaults(e, k)
    ensures e.errorType == TypeUnexpected && e.rendererIndex == C.IndexUnset
    ensures e.timeoutOperation == TimeoutOperationUndefined && e.message == "Unexpected runtime error"
  {
    MakeDefault(TypeUnexpected, cause, C.IndexUnset, nowMs, k)
  }

  /** `createForTimeout(cause, timeoutOperation)`: the only factory that records an operation. */
  function CreateForTimeout<Cause>(cause: Cause, timeoutOperation: int32, nowMs: int64, k: MessageText)
    : (e: ExoPlaybackException<Cause>)
    ensures FactoryDefaults(e, k)
    ensures e.errorType == TypeTimeout && e.rendererIndex == C.IndexUnset
    ensures e.timeoutOperation == timeoutOperation && e.message == "Timeout error"
  {
    Make(TypeTimeout, cause, None, None, C.IndexUnset, None, C.FormatHandled, timeoutOperation, false, nowMs, k)
  }

  /** `getSourceException()`. */
  function GetSourceException<Cause>(e: ExoPlaybackException<Cause>): (r: Result<Cause, AccessError>)
    ensures r.Success? <==> e.errorType == TypeSource
    ensures r.Success? ==> r.value == e.cause
  {
    if e.errorType == TypeSource then Success(e.cause) else Failure(IllegalState)
  }

  /** `getRendererException()`. */
  function GetRendererException<Cause>(e: ExoPlaybackException<Cause>): (r: Result<Cause, AccessError>)
    ensures r.Success? <==> e.errorType == TypeRenderer
    ensures r.Success? ==> r.value == e.cause
  {
    if e.errorType == TypeRenderer then Success(e.cause) else Failure(IllegalState)
  }

  /** `getUnexpectedException()`. */
  function GetUnexpectedException<Cause>(e: ExoPlaybackException<Cause>): (r: Result<Cause, AccessError>)
    ensures r.Success? <==> e.errorType == TypeUnexpected
    ensures r.Success? ==> r.value == e.cause
  {
    if e.errorType == TypeUnexpected then Success(e.cause) else Failure(IllegalState)
  }

  /**
    The cause given to a factory comes back from the getter of its own type and from no
    other; a timeout has no typed getter at all.
  */
  lemma FactoriesMatchGetters<Cause>(cause: Cause, rendererIndex: int32, op: int32, nowMs: int64, k: MessageText)
    ensures var e := CreateForSource(cause, nowMs, k);
      GetSourceException(e) == Success(cause) && GetRendererException(e).Failure? && GetUnexpectedException(e).Failure?
    ensures var e := CreateForRenderer(cause, rendererIndex, nowMs, k);
      GetRendererException(e) == Success(cause) && GetSourceException(e).Failure? && GetUnexpectedException(e).Failure?
    ensures var e := CreateForUnexpected(cause, nowMs, k);
      GetUnexpectedException(e) == Success(cause) && GetSourceException(e).Failure? && GetRendererException(e).Failure?
    ensures var e := CreateForTimeout(cause, op, nowMs, k);
      GetSourceException(e).Failure? && GetRendererException(e).Failure? && GetUnexpectedException(e).Failure?
  {
  }
}

=== FILE: java_int.dfy ===
/**
  Java's fixed-width integers on top of Dafny's unbounded `int`: the `int` and `long`
  ranges, two's-complement narrowing (wrap-around), and the big-endian 32-bit reads
  and writes of a byte buffer.
*/
module JavaInt {

  const TwoTo32: int := 0x1_0000_0000
  const TwoTo64: int := 0x1_0000_0000_0000_0000

  const Int32Min: int := -0x8000_0000
  const Int32Max: int := 0x7FFF_FFFF
  const Int64Min: int := -0x8000_0000_0000_0000
  const Int64Max: int := 0x7FFF_FFFF_FFFF_FFFF

  predicate IsInt32(x: int) {
    Int32Min <= x <= Int32Max
  }

  predicate IsInt64(x: int) {
    Int64Min <= x <= Int64Max
  }

  /** Java `int`. */
  type int32 = x: int | -0x8000_0000 <= x <= 0x7FFF_FFFF

  /** Java `long`. */
  type int64 = x: int | -0x8000_0000_0000_0000 <= x <= 0x7FFF_FFFF_FFFF_FFFF

  /** A byte of a buffer, read as its unsigned value (`b & 0xFF`). */
  type uint8 = x: int | 0 <= x < 256

  /** The `int` a Java expression evaluates to when its exact value is `x`. */
  function WrapInt32(x: int): (r: int32)
    ensures (x - r) % TwoTo32 == 0
    ensures IsInt32(x) ==> r == x
  {
    var m := x % TwoTo32;
    if m <= Int32Max then m else m - TwoTo32
  }

  /** The `long` a Java expression evaluates to when its exact value is `x`. */
  function WrapInt64(x: int): (r: int64)
    ensures (x - r) % TwoTo64 == 0
    ensures IsInt64(x) ==> r == x
  {
    var m := x % TwoTo64;
    if m <= Int64Max then m else m - TwoTo64
  }

  /** Wrap-around only sees a value modulo 2^32. */
  lemma WrapInt32Congruent(x: int, y: int)
    requires (x - y) % TwoTo32 == 0
    ensures WrapInt32(x) == WrapInt32(y)
  {
    var q := (x - y) / TwoTo32;
    assert x == y + q * TwoTo32;
    var k := y / TwoTo32;
    assert x == (k + q) * TwoTo32 + y % TwoTo32;
    assert x % TwoTo32 == y % TwoTo32;
  }

  lemma MulBound(n: int, d: int)
    requires d > 0
    ensures n >= 1 ==> n * d >= d
    ensures n <= -1 ==> n * d <= -d
  {
    if n >= 1 {
      assert n * d == (n - 1) * d + d;
    } else if n <= -1 {
      assert n * d == (n + 1) * d - d;
    }
  }

  /** Euclidean division is unique: a quotient and a remainder in range are the quotient and the remainder. */
  lemma DivModUnique(x: int, d: int, q: int, r: int)
    requires d > 0 && 0 <= r < d && x == q * d + r
    ensures x / d == q && x % d == r
  {
    var q0, r0 := x / d, x % d;
    assert (q - q0) * d == r0 - r;
    MulBound(q - q0, d);
  }

  /**
    Wrapping an operand of `a·x + b` first does not change the wrapped result: Java `int`
    arithmetic is arithmetic modulo 2^32.
  */
  lemma WrapInt32Affine(x: int, a: int, b: int)
    ensures WrapInt32(a * WrapInt32(x) + b) == WrapInt32(a * x + b)
  {
    var w: int := WrapInt32(x);
    var q := (x - w) / TwoTo32;
    assert x - w == q * TwoTo32;
    assert a * x + b - (a * w + b) == a * (x - w);
    assert a * (x - w) == (a * q) * TwoTo32;
    DivModUnique(a * x + b - (a * w + b), TwoTo32, a * q, 0);
    WrapInt32Congruent(a * x + b, a * w + b);
  }

  /** Big-endian unsigned value of the four bytes at `pos`. */
  function ReadUnsignedInt(data: seq<uint8>, pos: int): (r: int)
    requires 0 <= pos && pos + 4 <= |data|
    ensures 0 <= r < TwoTo32
  {
    ((data[pos] as int * 256 + data[pos + 1] as int) * 256 + data[pos + 2] as int) * 256 + data[pos + 3] as int
  }

  /** `ParsableByteArray.readInt`: the four bytes at `pos` as a big-endian two's-complement `int`. */
  function ReadInt(data: seq<uint8>, pos: int): int32
    requires 0 <= pos && pos + 4 <= |data|
  {
    var u := ReadUnsignedInt(data, pos);
    if u <= Int32Max then u else u - TwoTo32
  }

  /** The four big-endian bytes of an `int`. */
  function EncodeInt(x: int32): (bytes: seq<uint8>)
    ensures |bytes| == 4
  {
    var u := x % TwoTo32;
    var u1 := u / 256;
    var u2 := u1 / 256;
    [u2 / 256, u2 % 256, u1 % 256, u % 256]
  }

  /** Reading back the four bytes of `EncodeInt(x)`, wherever they sit, yields `x`. */
  lemma ReadEncodedInt(x: int32, data: seq<uint8>, pos: int)
    requires 0 <= pos && pos + 4 <= |data|
    requires data[pos..pos + 4] == EncodeInt(x)
    ensures ReadInt(data, pos) == x
  {
    var e := EncodeInt(x);
    assert data[pos] == e[0] && data[pos + 1] == e[1] && data[pos + 2] == e[2] && data[pos + 3] == e[3];
    assert ReadUnsignedInt(data, pos) == ReadUnsignedInt(e, 0);
    ReadUnsignedOfEncoded(x);
    assert x % TwoTo32 == if x >= 0 then x else x + TwoTo32;
  }

  lemma ReadUnsignedOfEncoded(x: int32)
    ensures ReadUnsignedInt(EncodeInt(x), 0) == x % TwoTo32
  {
    var u := x % TwoTo32;
    var u1 := u / 256;
    var u2 := u1 / 256;
    assert u2 == (u2 / 256) * 256 + u2 % 256;
    assert u1 == u2 * 256 + u1 % 256;
    assert u == u1 * 256 + u % 256;
  }
}

=== FILE: mdta_metadata_entry.dfy ===
/**
  `MdtaMetadataEntry`: a metadata entry with handler type `mdta` (QuickTime File Format):
  a key, a payload, a locale indicator and a type indicator that says how the payload
  is to be read.
*/
module MdtaMetadataEntry {
  import opened Wrappers
  import opened JavaInt

  const DefaultLocaleIndicator: int32 := 0
  const TypeIndicatorString: int32 := 1
  const TypeIndicatorFloat32: int32 := 23
  const TypeIndicatorInt32: int32 := 67

  datatype MdtaMetadataEntry = MdtaMetadataEntry(
    key: string,
    value: seq<uint8>,
    localeIndicator: int32,
    typeIndicator: int32)

  /** `MdtaMetadataEntry(key, value, typeIndicator)`: the default locale. */
  function WithDefaultLocale(key: string, value: seq<uint8>, typeIndicator: int32): (e: MdtaMetadataEntry)
    ensures e.localeIndicator == DefaultLocaleIndicator
    ensures e.key == key && e.value == value && e.typeIndicator == typeIndicator
  {
    MdtaMetadataEntry(key, value, DefaultLocaleIndicator, typeIndicator)
  }

  /**
    `equals`: the same key, the same payload bytes (`Arrays.equals`), the same locale
    and the same type. It is exactly equality of the four fields.
  */
  function Equals(a: MdtaMetadataEntry, b: MdtaMetadataEntry): (r: bool)
    ensures r <==> a == b
  {
    && a.key == b.key
    && a.value == b.value
    && a.localeIndicator == b.localeIndicator
    && a.typeIndicator == b.typeIndicator
  }

  lemma EqualsIsEquivalence(a: MdtaMetadataEntry, b: MdtaMetadataEntry, c: MdtaMetadataEntry)
    ensures Equals(a, a)
    ensures Equals(a, b) == Equals(b, a)
    ensures Equals(a, b) && Equals(b, c) ==> Equals(a, c)
  {
  }

  // ---------------------------------------------------------------------------
  // hashCode.

  /** `String.hashCode` and `Arrays.hashCode(byte[])`, which are not part of this model. */
  datatype Hashes = Hashes(ofString: string -> int32, ofBytes: seq<uint8> -> int32)

  /** The field hashes `hashCode` folds, in order. */
  function FieldHashes(e: MdtaMetadataEntry, h: Hashes): (hs: seq<int32>)
    ensures |hs| == 4
  {
    [h.ofString(e.key), h.ofBytes(e.value), e.localeIndicator, e.typeIndicator]
  }

  /** `result = 31 * result + h` for each field hash in turn, in `int` arithmetic. */
  function HashFold(seed: int32, hs: seq<int32>): int32
    decreases |hs|
  {
    if |hs| == 0 then seed else HashFold(WrapInt32(31 * seed as int + hs[0] as int), hs[1..])
  }

  /** `hashCode()`. */
  function HashCode(e: MdtaMetadataEntry, h: Hashes): (r: int32)
    ensures r == WrapInt32(Polynomial(17, FieldHashes(e, h)))
  {
    HashFoldWrapsOnce(17, FieldHashes(e, h));
    HashFold(17, FieldHashes(e, h))
  }

  /** The exact value of the fold, without wrap-around: a polynomial in 31. */
  function Polynomial(seed: int, hs: seq<int32>): int
    decreases |hs|
  {
    if |hs| == 0 then seed else Polynomial(31 * seed + hs[0], hs[1..])
  }

  /** Wrapping after every step is wrapping once at the end. */
  lemma {:induction false} HashFoldWrapsOnce(seed: int, hs: seq<int32>)
    ensures HashFold(WrapInt32(seed), hs) == WrapInt32(Polynomial(seed, hs))
    decreases |hs|
  {
    if |hs| == 0 {
    } else {
      WrapInt32Affine(seed, 31, hs[0] as int);
      HashFoldWrapsOnce(31 * seed + hs[0] as int, hs[1..]);
    }
  }

  /**
    `hashCode` is the Java `int` value of `17·31⁴ + 31³·hash(key) + 31²·hash(value) +
    31·locale + type`; entries that are `equals` have equal hashes.
  */
  lemma HashCodeClosedForm(e: MdtaMetadataEntry, h: Hashes)
    ensures HashCode(e, h)
         == WrapInt32(17 * 923521 + 29791 * h.ofString(e.key) + 961 * h.ofBytes(e.value)
                      + 31 * e.localeIndicator + e.typeIndicator)
  {
    var hs := FieldHashes(e, h);
    HashFoldWrapsOnce(17, hs);
    var p1 := 31 * 17 + hs[0] as int;
    var p2 := 31 * p1 + hs[1] as int;
    var p3 := 31 * p2 + hs[2] as int;
    var p4 := 31 * p3 + hs[3] as int;
    assert Polynomial(17, hs) == Polynomial(p1, hs[1..]);
    assert Polynomial(p1, hs[1..]) == Polynomial(p2, hs[2..]);
    assert Polynomial(p2, hs[2..]) == Polynomial(p3, hs[3..]);
    assert Polynomial(p3, hs[3..]) == Polynomial(p4, hs[4..]);
  }

  lemma EqualEntriesHashEqually(a: MdtaMetadataEntry, b: MdtaMetadataEntry, h: Hashes)
    requires Equals(a, b)
    ensures HashCode(a, h) == HashCode(b, h)
  {
  }

  // ---------------------------------------------------------------------------
  // Parcel.

  /** A value written to a `Parcel`, of the kinds this entry writes. */
  datatype ParcelValue = ParcelString(s: string) | ParcelBytes(bytes: seq<uint8>) | ParcelInt(i: int32)

  /** `writeToParcel`: key, value, locale, type, appended in that order. */
  function WriteToParcel(e: MdtaMetadataEntry, dest: seq<ParcelValue>): (r: seq<ParcelValue>)
    ensures |r| == |dest| + 4 && r[..|dest|] == dest
  {
    dest + [ParcelString(e.key), ParcelBytes(e.value), ParcelInt(e.localeIndicator), ParcelInt(e.typeIndicator)]
  }

  datatype ParcelError =
    /** The next value is missing or of another kind than the one read; what the Java `Parcel` then does is not part of this model. */
    | UnexpectedParcelValue(at: nat)

  /**
    The `Parcel` constructor: reads key, value, locale and type from `pos` on, and
    returns the entry and the position after it.
  */
  function ReadFromParcel(p: seq<ParcelValue>, pos: nat): (r: Result<(MdtaMetadataEntry, nat), ParcelError>)
    ensures r.Success? ==> r.value.1 == pos + 4 <= |p|
    ensures r.Success? ==> WriteToParcel(r.value.0, p[..pos]) == p[..pos + 4]
  {
    if pos + 4 > |p| then Failure(UnexpectedParcelValue(|p|))
    else if !p[pos].ParcelString? then Failure(UnexpectedParcelValue(pos))
    else if !p[pos + 1].ParcelBytes? then Failure(UnexpectedParcelValue(pos + 1))
    else if !p[pos + 2].ParcelInt? then Failure(UnexpectedParcelValue(pos + 2))
    else if !p[pos + 3].ParcelInt? then Failure(UnexpectedParcelValue(pos + 3))
    else
      var e := MdtaMetadataEntry(p[pos].s, p[pos + 1].bytes, p[pos + 2].i, p[pos + 3].i);
      assert p[..pos + 4] == p[..pos] + [p[pos], p[pos + 1], p[pos + 2], p[pos + 3]];
      Success((e, pos + 4))
  }

  /** Reading back what was written, after anything and before anything, yields an equal entry. */
  lemma ParcelRoundTrip(e: MdtaMetadataEntry, before: seq<ParcelValue>, after: seq<ParcelValue>)
    ensures ReadFromParcel(WriteToParcel(e, before) + after, |before|) == Success((e, |before| + 4))
  {
    var p := WriteToParcel(e, before) + after;
    var i := |before|;
    assert p[i] == ParcelString(e.key) && p[i + 1] == ParcelBytes(e.value);
    assert p[i + 2] == ParcelInt(e.localeIndicator) && p[i + 3] == ParcelInt(e.typeIndicator);
  }

  // ---------------------------------------------------------------------------
  // toString.

  /**
    The formatting calls `toString` makes, which are not part of this model:
    `Util.fromUtf8Bytes`, `String.valueOf(Util.toFloat(..))`,
    `String.valueOf(Util.toInteger(..))` and `Util.toHexString`.
  */
  datatype Formatters = Formatters(
    utf8: seq<uint8> -> string,
    float32: seq<uint8> -> string,
    int32: seq<uint8> -> string,
    hex: seq<uint8> -> string)

  /**
    How `toString` shows the payload: text for type 1, a float for type 23, an integer
    for type 67, and hex for every other type, each depending only on the payload.
  */
  function FormattedValue(e: MdtaMetadataEntry, f: Formatters): (v: string)
    ensures e.typeIndicator == TypeIndicatorString ==> v == f.utf8(e.value)
    ensures e.typeIndicator == TypeIndicatorFloat32 ==> v == f.float32(e.value)
    ensures e.typeIndicator == TypeIndicatorInt32 ==> v == f.int32(e.value)
    ensures e.typeIndicator !in {TypeIndicatorString, TypeIndicatorFloat32, TypeIndicatorInt32}
            ==> v == f.hex(e.value)
  {
    if e.typeIndicator == TypeIndicatorString then f.utf8(e.value)
    else if e.typeIndicator == TypeIndicatorFloat32 then f.float32(e.value)
    else if e.typeIndicator == TypeIndicatorInt32 then f.int32(e.value)
    else f.hex(e.value)
  }

  const KeyPrefix: string := "mdta: key="
  const ValueSeparator: string := ", value="

  /** `toString()`. */
  function ToString(e: MdtaMetadataEntry, f: Formatters): (s: string)
    ensures |s| == |KeyPrefix| + |e.key| + |ValueSeparator| + |FormattedValue(e, f)|
    ensures s[..|KeyPrefix|] == KeyPrefix
    ensures s[|KeyPrefix|..|KeyPrefix| + |e.key|] == e.key
    ensures s[|KeyPrefix| + |e.key|..|KeyPrefix| + |e.key| + |ValueSeparator|] == ValueSeparator
    ensures s[|s| - |FormattedValue(e, f)|..] == FormattedValue(e, f)
  {
    KeyPrefix + e.key + ValueSeparator + FormattedValue(e, f)
  }

  /**
    Reads a `toString` text back, given the length of the key (a key may itself contain
    `", value="`): the key and the formatted value, or nothing if the text does not have
    the shape `toString` gives.
  */
  function SplitToString(s: string, keyLength: nat): (r: Option<(string, string)>)
    ensures r.Some? ==> KeyPrefix + r.value.0 + ValueSeparator + r.value.1 == s
    ensures r.Some? ==> |r.value.0| == keyLength
  {
    var valueStart := |KeyPrefix| + keyLength + |ValueSeparator|;
    if |s| < valueStart then None
    else if s[..|KeyPrefix|] != KeyPrefix then None
    else if s[|KeyPrefix| + keyLength..valueStart] != ValueSeparator then None
    else
      var key := s[|KeyPrefix|..|KeyPrefix| + keyLength];
      var value := s[valueStart..];
      assert s == s[..|KeyPrefix|] + key + s[|KeyPrefix| + keyLength..valueStart] + value;
      Some((key, value))
  }

  /** `toString` loses nothing: its text splits back into the key and the formatted value. */
  lemma ToStringReadsBack(e: MdtaMetadataEntry, f: Formatters)
    ensures SplitToString(ToString(e, f), |e.key|) == Some((e.key, FormattedValue(e, f)))
  {
    var s := ToString(e, f);
    var valueStart := |KeyPrefix| + |e.key| + |ValueSeparator|;
    assert s[valueStart..] == FormattedValue(e, f);
  }
}

=== FILE: mp4_webvtt_boxes.dfy ===
/**
  Properties of `Mp4WebvttParser` stated against an independent description of a
  well-formed sample: a list of boxes, serialised in the box layout of section 4.2 of
  ISO/IEC 14496-12, where each `vttc` box holds a list of leaf children (ISO/IEC 14496-30).
*/
module Mp4WebvttBoxes {
  import opened Wrappers
  import opened JavaInt
  import C
  import opened Cues
  import opened Mp4WebvttParser

  /** A leaf box: its four-character type and its payload. */
  datatype Box = Box(boxType: int32, payload: seq<uint8>)

  /** A top-level box of a sample: a cue box with its children, or any other (peer) box. */
  datatype SampleBox = CueBoxOf(children: seq<Box>) | PeerBox(peer: Box)

  /** The box's size, header included, fits the 32-bit size field. */
  predicate FitsSizeField(payloadLength: int) {
    BoxHeaderSize + payloadLength <= Int32Max
  }

  predicate ValidBoxes(boxes: seq<Box>) {
    forall i :: 0 <= i < |boxes| ==> FitsSizeField(|boxes[i].payload|)
  }

  function SerializeBox(b: Box): (bytes: seq<uint8>)
    requires FitsSizeField(|b.payload|)
    ensures |bytes| == BoxHeaderSize + |b.payload|
  {
    EncodeInt(BoxHeaderSize + |b.payload|) + EncodeInt(b.boxType) + b.payload
  }

  function SerializeBoxes(boxes: seq<Box>): seq<uint8>
    requires ValidBoxes(boxes)
  {
    if |boxes| == 0 then [] else SerializeBox(boxes[0]) + SerializeBoxes(boxes[1..])
  }

  predicate ValidSampleBox(s: SampleBox) {
    match s
    case CueBoxOf(children) => ValidBoxes(children) && FitsSizeField(|SerializeBoxes(children)|)
    case PeerBox(peer) => FitsSizeField(|peer.payload|) && peer.boxType != TypeVttc
  }

  predicate ValidSample(sample: seq<SampleBox>) {
    forall i :: 0 <= i < |sample| ==> ValidSampleBox(sample[i])
  }

  /** The box a top-level entry is written as: a cue box's payload is its serialised children. */
  function AsBox(s: SampleBox): (b: Box)
    requires ValidSampleBox(s)
    ensures FitsSizeField(|b.payload|)
  {
    match s
    case CueBoxOf(children) => Box(TypeVttc, SerializeBoxes(children))
    case PeerBox(peer) => peer
  }

  function SerializeSample(sample: seq<SampleBox>): seq<uint8>
    requires ValidSample(sample)
  {
    if |sample| == 0 then [] else SerializeBox(AsBox(sample[0])) + SerializeSample(sample[1..])
  }

  /** The payload of the last child of type `t`, if there is one. */
  function LastPayloadOfType(children: seq<Box>, t: int32): (r: Option<seq<uint8>>)
  {
    if |children| == 0 then None
    else if children[|children| - 1].boxType == t then Some(children[|children| - 1].payload)
    else LastPayloadOfType(children[..|children| - 1], t)
  }

  /** What a cue box holding `children` must yield: the last settings and the last text payload. */
  function ExpectedCueBox(children: seq<Box>): CueBox {
    CueBox(LastPayloadOfType(children, TypeSttg), LastPayloadOfType(children, TypePayl))
  }

  /** One `CueBox` per cue box of the sample, in sample order; peer boxes contribute nothing. */
  function ExpectedCueBoxes(sample: seq<SampleBox>): (r: seq<CueBox>)
    ensures |r| <= |sample|
  {
    if |sample| == 0 then []
    else
      var head := match sample[0]
        case CueBoxOf(children) => [ExpectedCueBox(children)]
        case PeerBox(_) => [];
      head + ExpectedCueBoxes(sample[1..])
  }

  /** A later value overrides an earlier one. */
  function Override<T>(later: Option<T>, earlier: Option<T>): Option<T> {
    if later.Some? then later else earlier
  }

  /** The cue accumulated from `cue` after the children `children`. */
  function Merge(cue: CueBox, children: seq<Box>): CueBox {
    CueBox(Override(LastPayloadOfType(children, TypeSttg), cue.settings),
           Override(LastPayloadOfType(children, TypePayl), cue.text))
  }

  // ---------------------------------------------------------------------------
  // The reference: which child wins.

  /** `LastPayloadOfType` seen from the front: the first child loses to any later one of its type. */
  lemma {:induction false} LastPayloadOfCons(b: Box, rest: seq<Box>, t: int32)
    ensures LastPayloadOfType([b] + rest, t)
         == Override(LastPayloadOfType(rest, t), if b.boxType == t then Some(b.payload) else None)
    decreases |rest|
  {
    var all := [b] + rest;
    if |rest| == 0 {
      assert all == [b];
    } else {
      assert all[..|all| - 1] == [b] + rest[..|rest| - 1];
      assert all[|all| - 1] == rest[|rest| - 1];
      LastPayloadOfCons(b, rest[..|rest| - 1], t);
    }
  }

  /** A cue box has no value of a type exactly when it has no child of that type. */
  lemma {:induction false} LastPayloadNoneIff(children: seq<Box>, t: int32)
    ensures LastPayloadOfType(children, t).None? <==> forall i :: 0 <= i < |children| ==> children[i].boxType != t
    decreases |children|
  {
    if |children| > 0 {
      var init := children[..|children| - 1];
      LastPayloadNoneIff(init, t);
      assert forall i :: 0 <= i < |init| ==> init[i] == children[i];
    }
  }

  /** Processing one more child: a child overrides the value of its own type only. */
  lemma MergeCons(cue: CueBox, b: Box, rest: seq<Box>)
    ensures Merge(cue, [b] + rest) == Merge(ApplyChild(cue, b.boxType, b.payload), rest)
  {
    LastPayloadOfCons(b, rest, TypeSttg);
    LastPayloadOfCons(b, rest, TypePayl);
  }

  /**
    A later child of the same type overrides an earlier one; a child of any other
    type leaves the cue as it was.
  */
  lemma LaterChildOverrides(children: seq<Box>, b: Box)
    ensures b.boxType == TypeSttg ==> ExpectedCueBox(children + [b]).settings == Some(b.payload)
    ensures b.boxType == TypePayl ==> ExpectedCueBox(children + [b]).text == Some(b.payload)
    ensures b.boxType != TypeSttg ==> ExpectedCueBox(children + [b]).settings == ExpectedCueBox(children).settings
    ensures b.boxType != TypePayl ==> ExpectedCueBox(children + [b]).text == ExpectedCueBox(children).text
  {
    assert (children + [b])[..|children + [b]| - 1] == children;
  }

  /**
    A cue box without a `payl` child gets the empty text; one without a `sttg` child
    gets the default cue built from its text alone.
  */
  lemma MissingChildDefaults<B, T, Cue>(children: seq<Box>, k: Collaborators<B, T, Cue>)
    ensures (forall i :: 0 <= i < |children| ==> children[i].boxType != TypePayl)
            ==> CueText(ExpectedCueBox(children), k) == k.emptyText
    ensures (forall i :: 0 <= i < |children| ==> children[i].boxType != TypeSttg)
            ==> BuildCue(ExpectedCueBox(children), k) == k.newCueForText(CueText(ExpectedCueBox(children), k))
  {
    LastPayloadNoneIff(children, TypePayl);
    LastPayloadNoneIff(children, TypeSttg);
  }

  // ---------------------------------------------------------------------------
  // Reading serialised boxes back.

  /** A serialised box at the front of `bytes`: what its header reads as, and where its payload and what follows it sit. */
  lemma BoxHeader(b: Box, rest: seq<uint8>, bytes: seq<uint8>)
    requires FitsSizeField(|b.payload|)
    requires bytes == SerializeBox(b) + rest
    ensures |bytes| == BoxHeaderSize + |b.payload| + |rest|
    ensures ReadInt(bytes, 0) == BoxHeaderSize + |b.payload|
    ensures MinusHeader(ReadInt(bytes, 0)) == |b.payload|
    ensures ReadInt(bytes, 4) == b.boxType
    ensures bytes[BoxHeaderSize..] == b.payload + rest
    ensures bytes[BoxHeaderSize..BoxHeaderSize + |b.payload|] == b.payload
    ensures bytes[BoxHeaderSize + |b.payload|..] == rest
  {
    var sizeBytes := EncodeInt(BoxHeaderSize + |b.payload|);
    var typeBytes := EncodeInt(b.boxType);
    assert bytes == sizeBytes + typeBytes + (b.payload + rest);
    assert bytes[..4] == sizeBytes;
    assert bytes[4..8] == typeBytes;
    ReadEncodedInt(BoxHeaderSize + |b.payload|, bytes, 0);
    ReadEncodedInt(b.boxType, bytes, 4);
  }

  lemma ValidBoxesTail(children: seq<Box>)
    requires |children| > 0 && ValidBoxes(children)
    ensures ValidBoxes(children[1..])
  {
    assert forall i :: 0 <= i < |children| - 1 ==> children[1..][i] == children[i + 1];
  }

  lemma ValidSampleTail(sample: seq<SampleBox>)
    requires |sample| > 0 && ValidSample(sample)
    ensures ValidSample(sample[1..])
  {
    assert forall i :: 0 <= i < |sample| - 1 ==> sample[1..][i] == sample[i + 1];
  }

  /** One round of the child loop, with the values it computes named. */
  lemma ChildStep(bytes: seq<uint8>, remaining: int, cue: CueBox, n: int, t: int32, payload: seq<uint8>, after: seq<uint8>)
    requires remaining >= BoxHeaderSize && |bytes| >= BoxHeaderSize
    requires n == MinusHeader(ReadInt(bytes, 0)) && 0 <= n <= |bytes| - BoxHeaderSize
    requires t == ReadInt(bytes, 4)
    requires payload == bytes[BoxHeaderSize..BoxHeaderSize + n] && after == bytes[BoxHeaderSize + n..]
    ensures ParseCueBoxChildren(bytes, remaining, cue)
         == ParseCueBoxChildren(after, remaining - BoxHeaderSize - n, ApplyChild(cue, t, payload))
  {
  }

  lemma SerializeBoxesCons(children: seq<Box>)
    requires |children| > 0 && ValidBoxes(children)
    ensures ValidBoxes(children[1..])
    ensures SerializeBoxes(children) == SerializeBox(children[0]) + SerializeBoxes(children[1..])
  {
    ValidBoxesTail(children);
  }

  /** The child loop over a serialised box: it moves past the box and applies it. */
  lemma SerializedChildStep(b: Box, tail: seq<uint8>, bytes: seq<uint8>, remaining: int, cue: CueBox)
    requires FitsSizeField(|b.payload|) && bytes == SerializeBox(b) + tail
    requires remaining >= BoxHeaderSize + |b.payload|
    ensures ParseCueBoxChildren(bytes, remaining, cue)
         == ParseCueBoxChildren(tail, remaining - BoxHeaderSize - |b.payload|, ApplyChild(cue, b.boxType, b.payload))
  {
    BoxHeader(b, tail, bytes);
    ChildStep(bytes, remaining, cue, |b.payload|, b.boxType, b.payload, tail);
  }

  /**
    The children of a cue box, serialised and followed by anything at all, are read back
    exactly: with the cue box's budget the loop stops right after the last child, and the
    cue it returns is the reference `Merge`.
  */
  lemma {:induction false} ParseSerializedChildren(children: seq<Box>, suffix: seq<uint8>, cue: CueBox)
    requires ValidBoxes(children)
    ensures ParseCueBoxChildren(SerializeBoxes(children) + suffix, |SerializeBoxes(children)|, cue)
         == Success((Merge(cue, children), suffix))
    decreases |children|
  {
    if |children| == 0 {
      assert SerializeBoxes(children) + suffix == suffix;
    } else {
      var b, rest := children[0], children[1..];
      SerializeBoxesCons(children);
      var tail := SerializeBoxes(rest) + suffix;
      assert SerializeBoxes(children) + suffix == SerializeBox(b) + tail;
      SerializedChildStep(b, tail, SerializeBoxes(children) + suffix, |SerializeBoxes(children)|, cue);
      ParseSerializedChildren(rest, suffix, ApplyChild(cue, b.boxType, b.payload));
      assert children == [b] + rest;
      MergeCons(cue, b, rest);
    }
  }

  /**
    The child loop consumes a prefix of what it is given: what it leaves is the tail of
    its input.
  */
  lemma {:induction false} ChildrenLeaveSuffix(bytes: seq<uint8>, remaining: int, cue: CueBox)
    ensures var r := ParseCueBoxChildren(bytes, remaining, cue);
            r.Success? ==> r.value.1 == bytes[|bytes| - |r.value.1|..]
    decreases |bytes|
  {
    if remaining >= BoxHeaderSize && |bytes| >= BoxHeaderSize {
      var n := MinusHeader(ReadInt(bytes, 0));
      if 0 <= n <= |bytes| - BoxHeaderSize {
        var next := ApplyChild(cue, ReadInt(bytes, 4), bytes[BoxHeaderSize..BoxHeaderSize + n]);
        var after := bytes[BoxHeaderSize + n..];
        ChildStep(bytes, remaining, cue, n, ReadInt(bytes, 4), bytes[BoxHeaderSize..BoxHeaderSize + n], after);
        ChildrenLeaveSuffix(after, remaining - BoxHeaderSize - n, next);
        var r := ParseCueBoxChildren(after, remaining - BoxHeaderSize - n, next);
        if r.Success? {
          assert after[|after| - |r.value.1|..] == bytes[|bytes| - |r.value.1|..];
        }
      }
    }
  }

  /**
    A cue box whose size is at most its header has no budget for children: it yields a
    cue with neither settings nor text, and the next box starts right after its header.
  */
  lemma ShortCueBox(bytes: seq<uint8>)
    requires |bytes| >= BoxHeaderSize && ReadInt(bytes, 4) == TypeVttc
    requires MinusHeader(ReadInt(bytes, 0)) <= 0
    ensures ParseBoxes(bytes) == Prepend(NoChildren, ParseBoxes(bytes[BoxHeaderSize..]))
  {
  }

  /** The cue list `rest` yields, with `cue` in front. */
  function Prepend(cue: CueBox, rest: Result<seq<CueBox>, ParseError>): (r: Result<seq<CueBox>, ParseError>)
    ensures r.Success? <==> rest.Success?
    ensures r.Success? ==> r.value == [cue] + rest.value
  {
    if rest.Failure? then rest else Success([cue] + rest.value)
  }

  /** One round of the top-level loop over a cue box whose children were read up to `rest`. */
  lemma CueBoxStep(bytes: seq<uint8>, cue: CueBox, rest: seq<uint8>)
    requires |bytes| >= BoxHeaderSize && ReadInt(bytes, 4) == TypeVttc
    requires ParseCueBoxChildren(bytes[BoxHeaderSize..], MinusHeader(ReadInt(bytes, 0)), NoChildren)
          == Success((cue, rest))
    ensures ParseBoxes(bytes) == Prepend(cue, ParseBoxes(rest))
  {
  }

  /** One round of the top-level loop over any other box. */
  lemma PeerBoxStep(bytes: seq<uint8>, n: int)
    requires |bytes| >= BoxHeaderSize && ReadInt(bytes, 4) != TypeVttc
    requires n == MinusHeader(ReadInt(bytes, 0)) && 0 <= n <= |bytes| - BoxHeaderSize
    ensures ParseBoxes(bytes) == ParseBoxes(bytes[BoxHeaderSize + n..])
  {
  }

  lemma MergeNoChildren(children: seq<Box>)
    ensures Merge(NoChildren, children) == ExpectedCueBox(children)
  {
  }

  /** A sample that starts with a cue box, given what the rest of it reads as. */
  lemma CueBoxFirst(sample: seq<SampleBox>, children: seq<Box>)
    requires |sample| > 0 && ValidSample(sample) && sample[0] == CueBoxOf(children)
    requires ParseBoxes(SerializeSample(sample[1..])) == Success(ExpectedCueBoxes(sample[1..]))
    ensures ParseBoxes(SerializeSample(sample)) == Success(ExpectedCueBoxes(sample))
  {
    assert ValidSampleBox(sample[0]);
    var bytes := SerializeSample(sample);
    var tail := SerializeSample(sample[1..]);
    var box := Box(TypeVttc, SerializeBoxes(children));
    assert bytes == SerializeBox(box) + tail;
    BoxHeader(box, tail, bytes);
    ParseSerializedChildren(children, tail, NoChildren);
    MergeNoChildren(children);
    CueBoxStep(bytes, ExpectedCueBox(children), tail);
  }

  /** A sample that starts with any other box, given what the rest of it reads as. */
  lemma PeerBoxFirst(sample: seq<SampleBox>, peer: Box)
    requires |sample| > 0 && ValidSample(sample) && sample[0] == PeerBox(peer)
    requires ParseBoxes(SerializeSample(sample[1..])) == Success(ExpectedCueBoxes(sample[1..]))
    ensures ParseBoxes(SerializeSample(sample)) == Success(ExpectedCueBoxes(sample))
  {
    assert ValidSampleBox(sample[0]);
    var bytes := SerializeSample(sample);
    var tail := SerializeSample(sample[1..]);
    assert bytes == SerializeBox(peer) + tail;
    BoxHeader(peer, tail, bytes);
    PeerBoxStep(bytes, |peer.payload|);
    assert ExpectedCueBoxes(sample) == ExpectedCueBoxes(sample[1..]);
  }

  /**
    A well-formed sample is read back exactly: one `CueBox` per cue box, holding the
    last settings and the last text among its children, and nothing for the other boxes.
  */
  lemma {:induction false} ParseSerializedBoxes(sample: seq<SampleBox>)
    requires ValidSample(sample)
    ensures ParseBoxes(SerializeSample(sample)) == Success(ExpectedCueBoxes(sample))
    decreases |sample|
  {
    if |sample| > 0 {
      ValidSampleTail(sample);
      ParseSerializedBoxes(sample[1..]);
      match sample[0]
      case CueBoxOf(children) => CueBoxFirst(sample, children);
      case PeerBox(peer) => PeerBoxFirst(sample, peer);
    }
  }

  /**
    `parse` on a range holding a well-formed sample yields a single `CuesWithTiming`
    with unset timing whose cues are built, in order, from the cue boxes' last settings
    and last text.
  */
  lemma ParseSerializedSample<B, T, Cue>(data: seq<uint8>, offset: int, length: int,
                                          sample: seq<SampleBox>, k: Collaborators<B, T, Cue>)
    requires 0 <= offset && 0 <= length && offset + length <= |data|
    requires ValidSample(sample) && data[offset..offset + length] == SerializeSample(sample)
    ensures Parse(data, offset, length, k)
         == Success([CuesWithTiming(BuildCues(ExpectedCueBoxes(sample), k), C.TimeUnset, C.TimeUnset)])
  {
    ParseSerializedBoxes(sample);
  }

  /**
    `parse` reads only `data[offset, offset + length)`: two arrays that agree on their
    ranges give the same result, whatever lies around them.
  */
  lemma ParseDependsOnlyOnRange<B, T, Cue>(data1: seq<uint8>, offset1: int, data2: seq<uint8>, offset2: int,
                                           length: int, k: Collaborators<B, T, Cue>)
    requires 0 <= offset1 && 0 <= length && offset1 + length <= |data1|
    requires 0 <= offset2 && offset2 + length <= |data2|
    requires data1[offset1..offset1 + length] == data2[offset2..offset2 + length]
    ensures Parse(data1, offset1, length, k) == Parse(data2, offset2, length, k)
  {
  }
}

=== FILE: mp4_webvtt_parser.dfy ===
/**
  The parser for WebVTT samples carried in an MP4 track (`Mp4WebvttParser`).

  A sample is a flat run of boxes in the layout of section 4.2 of ISO/IEC 14496-12:
  a 32-bit big-endian size, a 32-bit type, and `size - 8` payload bytes. Every top-level
  `vttc` box (ISO/IEC 14496-30) becomes one cue built from the last `sttg` (settings) and
  the last `payl` (text) child it holds; every other top-level box is skipped.

  The cursor of `ParsableByteArray` is modelled by the bytes it has left: the loops
  work on `bytes`, the bytes between the cursor's position and its limit, and a read
  consumes a prefix. The Java reads, skips and string decodes whose behaviour is not
  visible here (a negative skip, a read or skip past the limit, a negative decode
  length) end the model with `OutsideModel`: the model makes no prediction for such input.
*/
module Mp4WebvttParser {
  import opened Wrappers
  import opened JavaInt
  import C
  import opened Cues

  const BoxHeaderSize: int := 8

  const TypePayl: int32 := 0x7061796c
  const TypeSttg: int32 := 0x73747467
  const TypeVttc: int32 := 0x76747463

  datatype ParseError =
    /** `checkArgument` failed: fewer than 8 bytes left before a top-level box header. */
    | IncompleteTopLevelHeader
    /** `checkArgument` failed: fewer than 8 bytes of a cue box's budget left before a child header. */
    | IncompleteCueBoxHeader
    /** A box size below the header size, or a payload reaching past the limit. */
    | OutsideModel

  /**
    What a `vttc` box contributes before the cue is built: the payload bytes of the last
    `sttg` child and of the last `payl` child, if any. These are the values the Java locals
    `cueBuilder` and `cueText` are computed from.
  */
  datatype CueBox = CueBox(settings: Option<seq<uint8>>, text: Option<seq<uint8>>)

  const NoChildren: CueBox := CueBox(None, None)

  /**
    The collaborators the parser calls and that are not part of this model:
    `Util.fromUtf8Bytes`, `String.trim`, `WebvttCueParser.parseCueSettingsList`,
    `WebvttCueParser.parseCueText`, the empty `CharSequence`, `Cue.Builder.setText(..).build()`
    and `WebvttCueParser.newCueForText`.
  */
  datatype Collaborators<!Builder, !Text, Cue> = Collaborators(
    fromUtf8: seq<uint8> -> string,
    trim: string -> string,
    parseCueSettingsList: string -> Builder,
    parseCueText: string -> Text,
    emptyText: Text,
    buildWithText: (Builder, Text) -> Cue,
    newCueForText: Text -> Cue)

  /**
    `boxSize - BOX_HEADER_SIZE` in Java `int` arithmetic: sizes below `Integer.MIN_VALUE + 8`
    wrap around to large positive values.
  */
  function MinusHeader(boxSize: int32): (r: int32)
    ensures r == WrapInt32(boxSize as int - BoxHeaderSize)
    ensures boxSize >= Int32Min + BoxHeaderSize ==> r == boxSize - BoxHeaderSize
  {
    var exact := boxSize as int - BoxHeaderSize;
    if exact < Int32Min then exact + TwoTo32 else exact
  }

  /** The effect of one child box of a `vttc` box on what the cue is built from. */
  function ApplyChild(cue: CueBox, boxType: int32, payload: seq<uint8>): (r: CueBox)
    ensures boxType == TypeSttg ==> r == cue.(settings := Some(payload))
    ensures boxType == TypePayl ==> r == cue.(text := Some(payload))
    ensures boxType != TypeSttg && boxType != TypePayl ==> r == cue
  {
    if boxType == TypeSttg then cue.(settings := Some(payload))
    else if boxType == TypePayl then cue.(text := Some(payload))
    else cue
  }

  /**
    The child loop of `parseVttCueBox`: reads children while the cue box budget
    `remaining` is positive. On success it returns the accumulated cue and the bytes
    left after the last child. Children are read from the sample itself, not from a copy
    of the cue box's payload, so a child whose size reaches past its cue box reads on
    into the boxes that follow.
  */
  function ParseCueBoxChildren(bytes: seq<uint8>, remaining: int, cue: CueBox)
    : (r: Result<(CueBox, seq<uint8>), ParseError>)
    ensures remaining <= 0 ==> r == Success((cue, bytes))
    ensures 0 < remaining < BoxHeaderSize ==> r == Failure(IncompleteCueBoxHeader)
    // The loop stops only once it has consumed at least the budget.
    ensures r.Success? ==> |r.value.1| <= |bytes| && |bytes| - |r.value.1| >= remaining
    decreases |bytes|
  {
    if remaining <= 0 then Success((cue, bytes))
    else if remaining < BoxHeaderSize then Failure(IncompleteCueBoxHeader)
    else if |bytes| < BoxHeaderSize then Failure(OutsideModel)
    else
      var boxSize := ReadInt(bytes, 0);
      var boxType := ReadInt(bytes, 4);
      var payloadLength := MinusHeader(boxSize);
      if payloadLength < 0 || payloadLength > |bytes| - BoxHeaderSize then Failure(OutsideModel)
      else
        var end := BoxHeaderSize + payloadLength;
        ParseCueBoxChildren(bytes[end..], remaining - end, ApplyChild(cue, boxType, bytes[BoxHeaderSize..end]))
  }

  /**
    The top-level loop of `parse`: one `CueBox` per `vttc` box, in box order, until no
    bytes are left.
  */
  function ParseBoxes(bytes: seq<uint8>): (r: Result<seq<CueBox>, ParseError>)
    ensures |bytes| == 0 ==> r == Success([])
    ensures 0 < |bytes| < BoxHeaderSize ==> r == Failure(IncompleteTopLevelHeader)
    decreases |bytes|
  {
    if |bytes| == 0 then Success([])
    else if |bytes| < BoxHeaderSize then Failure(IncompleteTopLevelHeader)
    else
      var boxSize := ReadInt(bytes, 0);
      var boxType := ReadInt(bytes, 4);
      var bodyLength := MinusHeader(boxSize);
      if boxType == TypeVttc then
        match ParseCueBoxChildren(bytes[BoxHeaderSize..], bodyLength, NoChildren)
        case Failure(e) => Failure(e)
        case Success((cue, rest)) =>
          match ParseBoxes(rest)
          case Failure(e) => Failure(e)
          case Success(cues) => Success([cue] + cues)
      else if bodyLength < 0 || bodyLength > |bytes| - BoxHeaderSize then Failure(OutsideModel)
      else ParseBoxes(bytes[BoxHeaderSize + bodyLength..])
  }

  /** The text of a cue: the parsed, trimmed `payl` payload, or the empty text without one. */
  function CueText<B, T, Cue>(cue: CueBox, k: Collaborators<B, T, Cue>): (t: T)
    ensures cue.text.None? ==> t == k.emptyText
    ensures cue.text.Some? ==> t == k.parseCueText(k.trim(k.fromUtf8(cue.text.value)))
  {
    match cue.text
    case None => k.emptyText
    case Some(p) => k.parseCueText(k.trim(k.fromUtf8(p)))
  }

  /** The cue `parseVttCueBox` returns: built on the settings if there were any, else the default cue. */
  function BuildCue<B, T, Cue>(cue: CueBox, k: Collaborators<B, T, Cue>): (c: Cue)
    ensures cue.settings.None? ==> c == k.newCueForText(CueText(cue, k))
    ensures cue.settings.Some? ==> c == k.buildWithText(k.parseCueSettingsList(k.fromUtf8(cue.settings.value)), CueText(cue, k))
  {
    match cue.settings
    case None => k.newCueForText(CueText(cue, k))
    case Some(s) => k.buildWithText(k.parseCueSettingsList(k.fromUtf8(s)), CueText(cue, k))
  }

  function BuildCues<B, T, Cue>(cues: seq<CueBox>, k: Collaborators<B, T, Cue>): (r: seq<Cue>)
    ensures |r| == |cues|
    ensures forall i :: 0 <= i < |cues| ==> r[i] == BuildCue(cues[i], k)
  {
    seq(|cues|, i requires 0 <= i < |cues| => BuildCue(cues[i], k))
  }

  /**
    `Mp4WebvttParser.parse(data, offset, length)`: the cursor is reset to the range
    `data[offset, offset + length)`, which is all it reads. On success the result is
    exactly one `CuesWithTiming` whose timing is unset and whose cues are those of the
    `vttc` boxes.
  */
  function Parse<B, T, Cue>(data: seq<uint8>, offset: int, length: int, k: Collaborators<B, T, Cue>)
    : (r: Result<seq<CuesWithTiming<Cue>>, ParseError>)
    requires 0 <= offset && 0 <= length && offset + length <= |data|
    ensures r.Success? <==> ParseBoxes(data[offset..offset + length]).Success?
    ensures r.Success? ==>
      && |r.value| == 1
      && r.value[0].startTimeUs == C.TimeUnset
      && r.value[0].durationUs == C.TimeUnset
      && r.value[0].cues == BuildCues(ParseBoxes(data[offset..offset + length]).value, k)
    ensures r.Failure? ==> r.error == ParseBoxes(data[offset..offset + length]).error
  {
    match ParseBoxes(data[offset..offset + length])
    case Failure(e) => Failure(e)
    case Success(cues) => Success([CuesWithTiming(BuildCues(cues, k), C.TimeUnset, C.TimeUnset)])
  }
}

=== FILE: subrip.dfy ===
/**
  SubRip subtitles as the parser's unit tests pin them down (`SubripParserTest`).

  `SubripParser.java` is not part of this model, and neither are its line reader, its
  regular expressions and its character-set detection. The model starts from a file
  already cut into blocks: a sequence number (if the line parsed as one), a timing line
  (if it had the timecode shape) and the text lines. From there it fixes what the tests
  assert: the timecode arithmetic, which blocks are dropped, the two entries each cue
  yields, how tags are stripped from the text and how an `{\anN}` tag places the cue.
*/
module Subrip {
  import opened Wrappers
  import opened Cues
  import opened JavaInt

  // ---------------------------------------------------------------------------
  // Timecodes.

  /**
    A timecode `[hh:]mm:ss[,mmm]` as written; hours and milliseconds may be omitted.
    A component written with a minus sign is negative here.
  */
  datatype Timecode = Timecode(hours: Option<int>, minutes: int, seconds: int, millis: Option<int>)

  predicate ValidTimecode(t: Timecode) {
    && t.hours.GetOr(0) >= 0 && t.minutes >= 0 && t.seconds >= 0 && t.millis.GetOr(0) >= 0
  }

  /** The time a timecode denotes, in microseconds: `((h·3600 + m·60 + s)·1000 + ms)·1000`, with missing parts 0. */
  function TimecodeUs(t: Timecode): (us: int)
    ensures ValidTimecode(t) ==> us >= 0 && us % 1000 == 0
  {
    ((t.hours.GetOr(0) * 3600 + t.minutes * 60 + t.seconds) * 1000 + t.millis.GetOr(0)) * 1000
  }

  /** A timecode in its usual form: every part written, minutes and seconds below 60, milliseconds below 1000. */
  predicate Canonical(t: Timecode) {
    && t.hours.Some? && t.millis.Some?
    && t.hours.value >= 0 && 0 <= t.minutes < 60 && 0 <= t.seconds < 60 && 0 <= t.millis.value < 1000
  }

  /** The canonical timecode of a time in whole milliseconds. */
  function ToTimecode(us: nat): (t: Timecode)
    requires us % 1000 == 0
    ensures Canonical(t)
  {
    var ms := us / 1000;
    Timecode(Some(ms / 3_600_000), (ms / 60_000) % 60, (ms / 1000) % 60, Some(ms % 1000))
  }

  /** Writing a time as a timecode and reading it back gives the same time. */
  lemma ToTimecodeRoundTrip(us: nat)
    requires us % 1000 == 0
    ensures TimecodeUs(ToTimecode(us)) == us
  {
    var ms := us / 1000;
    var totalSeconds := ms / 1000;
    assert ms == totalSeconds * 1000 + ms % 1000;
    assert totalSeconds == (ms / 60_000) * 60 + (ms / 1000) % 60;
    assert ms / 60_000 == (ms / 3_600_000) * 60 + (ms / 60_000) % 60;
  }

  /** A canonical timecode is the only one of its time: reading it and writing it back gives it again. */
  lemma TimecodeRoundTrip(t: Timecode)
    requires Canonical(t)
    ensures ToTimecode(TimecodeUs(t)) == t
  {
    var h, m, s, ms := t.hours.value, t.minutes, t.seconds, t.millis.value;
    var hm := h * 60 + m;
    var hms := hm * 60 + s;
    var total := hms * 1000 + ms;
    assert TimecodeUs(t) == total * 1000;
    DivModUnique(total * 1000, 1000, total, 0);
    DivModUnique(total, 1000, hms, ms);
    DivModUnique(total, 60_000, hm, s * 1000 + ms);
    DivModUnique(total, 3_600_000, h, (m * 60 + s) * 1000 + ms);
    DivModUnique(hms, 60, hm, s);
    DivModUnique(hm, 60, h, m);
  }

  // ---------------------------------------------------------------------------
  // Tags.

  /** The index of the first `}` in `s` at or after `from`, if any. */
  function FindClose(s: string, from: nat): (r: Option<nat>)
    ensures r.Some? ==> from <= r.value < |s| && s[r.value] == '}'
    ensures r.Some? ==> forall k :: from <= k < r.value ==> s[k] != '}'
    ensures r.None? ==> forall k :: from <= k < |s| ==> s[k] != '}'
    decreases |s| - from
  {
    if from >= |s| then None
    else if s[from] == '}' then Some(from)
    else FindClose(s, from + 1)
  }

  /** A piece of a text line: one literal character, or a whole tag. */
  datatype Piece = Literal(c: char) | Tag(tag: string)

  /**
    Cuts a line into literal characters and tags. A tag is `{\`, then as few characters
    as possible, then `}`. A `{` that does not open a tag (`{ \an2}`, or one never closed)
    is literal text.
  */
  function Pieces(s: string): (ps: seq<Piece>)
    ensures |ps| <= |s|
    ensures |ps| == 0 <==> |s| == 0
    decreases |s|
  {
    if |s| == 0 then []
    else if |s| >= 2 && s[0] == '{' && s[1] == '\\' && FindClose(s, 2).Some? then
      var end := FindClose(s, 2).value + 1;
      [Tag(s[..end])] + Pieces(s[end..])
    else [Literal(s[0])] + Pieces(s[1..])
  }

  /** The text the pieces were cut from. */
  function Render(ps: seq<Piece>): string {
    if |ps| == 0 then []
    else (match ps[0] case Literal(c) => [c] case Tag(t) => t) + Render(ps[1..])
  }

  /** The text with its tags removed. */
  function TextOf(ps: seq<Piece>): string {
    if |ps| == 0 then []
    else (match ps[0] case Literal(c) => [c] case Tag(_) => []) + TextOf(ps[1..])
  }

  /** The tags, in order. */
  function TagsOf(ps: seq<Piece>): seq<string> {
    if |ps| == 0 then []
    else (match ps[0] case Literal(_) => [] case Tag(t) => [t]) + TagsOf(ps[1..])
  }

  predicate WellFormedTag(t: string) {
    && |t| >= 3 && t[0] == '{' && t[1] == '\\' && t[|t| - 1] == '}'
    && forall k :: 2 <= k < |t| - 1 ==> t[k] != '}'
  }

  lemma RenderCons(p: Piece, ps: seq<Piece>)
    ensures Render([p] + ps) == (match p case Literal(c) => [c] case Tag(t) => t) + Render(ps)
  {
    assert ([p] + ps)[1..] == ps;
  }

  /** A line that opens with a closed tag: the tag, then the pieces of what follows it. */
  lemma PiecesTagStep(s: string, end: nat)
    requires |s| >= 2 && s[0] == '{' && s[1] == '\\' && FindClose(s, 2).Some?
    requires end == FindClose(s, 2).value + 1
    ensures Pieces(s) == [Tag(s[..end])] + Pieces(s[end..])
  {
  }

  /** A line that does not open with a closed tag: its first character, then the pieces of the rest. */
  lemma PiecesLiteralStep(s: string)
    requires |s| > 0 && !(|s| >= 2 && s[0] == '{' && s[1] == '\\' && FindClose(s, 2).Some?)
    ensures Pieces(s) == [Literal(s[0])] + Pieces(s[1..])
  {
  }

  lemma RenderTagStep(s: string, end: nat, rest: seq<Piece>)
    requires end <= |s| && Render(rest) == s[end..]
    ensures Render([Tag(s[..end])] + rest) == s
  {
    RenderCons(Tag(s[..end]), rest);
    assert s[..end] + s[end..] == s;
  }

  lemma RenderLiteralStep(s: string, rest: seq<Piece>)
    requires |s| > 0 && Render(rest) == s[1..]
    ensures Render([Literal(s[0])] + rest) == s
  {
    RenderCons(Literal(s[0]), rest);
    assert [s[0]] + s[1..] == s;
  }

  /** Cutting a line into pieces loses nothing: the pieces put back together are the line. */
  lemma {:induction false} PiecesRoundTrip(s: string)
    ensures Render(Pieces(s)) == s
    decreases |s|
  {
    if |s| > 0 {
      if |s| >= 2 && s[0] == '{' && s[1] == '\\' && FindClose(s, 2).Some? {
        var end := FindClose(s, 2).value + 1;
        PiecesTagStep(s, end);
        PiecesRoundTrip(s[end..]);
        RenderTagStep(s, end, Pieces(s[end..]));
      } else {
        PiecesLiteralStep(s);
        PiecesRoundTrip(s[1..]);
        RenderLiteralStep(s, Pieces(s[1..]));
      }
    }
  }

  /** Every tag cut from a line is well formed. */
  lemma {:induction false} PiecesTagsWellFormed(s: string)
    ensures forall i :: 0 <= i < |Pieces(s)| && Pieces(s)[i].Tag? ==> WellFormedTag(Pieces(s)[i].tag)
    decreases |s|
  {
    if |s| > 0 {
      if |s| >= 2 && s[0] == '{' && s[1] == '\\' && FindClose(s, 2).Some? {
        var end := FindClose(s, 2).value + 1;
        PiecesTagsWellFormed(s[end..]);
        var ps := Pieces(s);
        assert ps == [Tag(s[..end])] + Pieces(s[end..]);
        forall i | 0 <= i < |ps| && ps[i].Tag?
          ensures WellFormedTag(ps[i].tag)
        {
          if i > 0 {
            assert ps[i] == Pieces(s[end..])[i - 1];
          }
        }
      } else {
        PiecesTagsWellFormed(s[1..]);
        var ps := Pieces(s);
        assert ps == [Literal(s[0])] + Pieces(s[1..]);
        forall i | 0 <= i < |ps| && ps[i].Tag?
          ensures WellFormedTag(ps[i].tag)
        {
          assert ps[i] == Pieces(s[1..])[i - 1];
        }
      }
    }
  }

  /** A line in which no `{` is directly followed by a backslash has no tags: its text is the line itself. */
  lemma {:induction false} NoTagOpenerMeansLiteral(s: string)
    requires forall k :: 0 <= k < |s| - 1 ==> !(s[k] == '{' && s[k + 1] == '\\')
    ensures TextOf(Pieces(s)) == s
    ensures TagsOf(Pieces(s)) == []
    decreases |s|
  {
    if |s| > 0 {
      NoTagOpenerMeansLiteral(s[1..]);
      assert s == [s[0]] + s[1..];
    }
  }

  lemma TextOfCons(p: Piece, ps: seq<Piece>)
    ensures TextOf([p] + ps) == (match p case Literal(c) => [c] case Tag(_) => []) + TextOf(ps)
    ensures TagsOf([p] + ps) == (match p case Literal(_) => [] case Tag(t) => [t]) + TagsOf(ps)
  {
    assert ([p] + ps)[1..] == ps;
  }

  /** `FindClose` finds the first `}` at or after `from`. */
  lemma {:induction false} FindCloseAt(s: string, from: nat, j: nat)
    requires from <= j < |s| && s[j] == '}'
    requires forall k :: from <= k < j ==> s[k] != '}'
    ensures FindClose(s, from) == Some(j)
    decreases j - from
  {
    if from < j {
      FindCloseAt(s, from + 1, j);
    }
  }

  /** A line that opens with the tag `{\m}`: the tag is cut out, and the rest is cut as on its own. */
  lemma TagAtFrontIsCut(m: string, post: string)
    requires '}' !in m
    ensures Pieces("{\\" + m + "}" + post) == [Tag("{\\" + m + "}")] + Pieces(post)
  {
    var tag := "{\\" + m + "}";
    var s := tag + post;
    forall k | 2 <= k < 2 + |m|
      ensures s[k] != '}'
    {
      assert s[k] == m[k - 2];
    }
    FindCloseAt(s, 2, 2 + |m|);
    var end := |tag|;
    assert s[..end] == tag && s[end..] == post;
    PiecesTagStep(s, end);
  }

  /** A character of a prefix that opens no tag, in front of a `{`, is cut as a literal. */
  lemma PrefixCharIsLiteral(pre: string, tail: string)
    requires |pre| > 0 && |tail| > 0 && tail[0] == '{'
    requires forall k :: 0 <= k < |pre| - 1 ==> !(pre[k] == '{' && pre[k + 1] == '\\')
    ensures Pieces(pre + tail) == [Literal(pre[0])] + Pieces(pre[1..] + tail)
  {
    var s := pre + tail;
    assert s[0] == pre[0];
    if |pre| >= 2 {
      assert s[1] == pre[1];
    } else {
      assert s[1] == tail[0];
    }
    PiecesLiteralStep(s);
    assert s[1..] == pre[1..] + tail;
  }

  lemma LiteralTextStep(c: char, rest: string, ps: seq<Piece>, tags: seq<string>)
    requires TextOf(ps) == rest
    requires TagsOf(ps) == tags
    ensures TextOf([Literal(c)] + ps) == [c] + rest
    ensures TagsOf([Literal(c)] + ps) == tags
  {
    TextOfCons(Literal(c), ps);
  }

  /** One character of a prefix that opens no tag: it stays in front of the text, and adds no tag. */
  lemma PrefixCharStep(pre: string, tail: string, restText: string, tags: seq<string>)
    requires forall k :: 0 <= k < |pre| - 1 ==> !(pre[k] == '{' && pre[k + 1] == '\\')
    requires |pre| > 0 && |tail| > 0 && tail[0] == '{'
    requires TextOf(Pieces(pre[1..] + tail)) == pre[1..] + restText
    requires TagsOf(Pieces(pre[1..] + tail)) == tags
    ensures TextOf(Pieces(pre + tail)) == pre + restText
    ensures TagsOf(Pieces(pre + tail)) == tags
  {
    PrefixCharIsLiteral(pre, tail);
    LiteralTextStep(pre[0], pre[1..] + restText, Pieces(pre[1..] + tail), tags);
    ConsAppend(pre, restText);
  }

  lemma ConsAppend(s: string, t: string)
    requires |s| > 0
    ensures [s[0]] + (s[1..] + t) == s + t
  {
    assert [s[0]] + s[1..] == s;
  }

  /**
    A prefix that opens no tag is kept as text in front of a line `tail` that opens with
    the tag `tag`, followed by `post`.
  */
  lemma {:induction false} TagAfterPrefixIsCut(pre: string, tail: string, tag: string, post: string)
    requires forall k :: 0 <= k < |pre| - 1 ==> !(pre[k] == '{' && pre[k + 1] == '\\')
    requires |tail| > 0 && tail[0] == '{'
    requires Pieces(tail) == [Tag(tag)] + Pieces(post)
    ensures TextOf(Pieces(pre + tail)) == pre + TextOf(Pieces(post))
    ensures TagsOf(Pieces(pre + tail)) == [tag] + TagsOf(Pieces(post))
    decreases |pre|
  {
    if |pre| == 0 {
      assert pre + tail == tail;
      TextOfCons(Tag(tag), Pieces(post));
    } else {
      TagAfterPrefixIsCut(pre[1..], tail, tag, post);
      PrefixCharStep(pre, tail, TextOf(Pieces(post)), [tag] + TagsOf(Pieces(post)));
    }
  }

  /**
    Tag stripping: in a line `pre + "{\m}" + post` where `pre` opens no tag and `m` has
    no `}`, the tag is cut out, its text is `pre` followed by the text of `post`, and the
    tag comes before every tag of `post`.
  */
  lemma TagIsCut(pre: string, m: string, post: string)
    requires forall k :: 0 <= k < |pre| - 1 ==> !(pre[k] == '{' && pre[k + 1] == '\\')
    requires '}' !in m
    ensures TextOf(Pieces(pre + "{\\" + m + "}" + post)) == pre + TextOf(Pieces(post))
    ensures TagsOf(Pieces(pre + "{\\" + m + "}" + post)) == ["{\\" + m + "}"] + TagsOf(Pieces(post))
  {
    var tag := "{\\" + m + "}";
    var tail := tag + post;
    assert pre + "{\\" + m + "}" + post == pre + tail;
    TagAtFrontIsCut(m, post);
    TagAfterPrefixIsCut(pre, tail, tag, post);
  }

  /** The tag `{\anN}` stands for keypad position N. */
  lemma AnTagDigit(d: char)
    requires '1' <= d <= '9'
    ensures '}' !in "an" + [d]
    ensures "{\\an" + [d] + "}" == "{\\" + ("an" + [d]) + "}"
    ensures AlignmentDigit("{\\an" + [d] + "}") == Some(d as int - '0' as int)
  {
    var tag := "{\\an" + [d] + "}";
    assert tag[..4] == "{\\an" && tag[4] == d && tag[5] == '}';
  }

  /** The tags of a line that opens with the tag `tag`: that tag, then the tags of the rest. */
  lemma FrontTagIsFirst(tag: string, post: string, m: string)
    requires '}' !in m && tag == "{\\" + m + "}"
    ensures TagsOf(Pieces(tag + post)) == [tag] + TagsOf(Pieces(post))
  {
    TagAtFrontIsCut(m, post);
    TextOfCons(Tag(tag), Pieces(post));
  }

  lemma FirstAlignmentFront(tags: seq<string>)
    requires |tags| > 0 && AlignmentDigit(tags[0]).Some?
    ensures FirstAlignment(tags) == AlignmentDigit(tags[0])
  {
  }

  /** A line that opens with `{\anN}` is placed by that tag, whatever follows it. */
  lemma AlignmentTagIsFound(d: char, post: string)
    requires '1' <= d <= '9'
    ensures FirstAlignment(TagsOf(Pieces("{\\an" + [d] + "}" + post))) == Some(d as int - '0' as int)
    ensures var tags := TagsOf(Pieces("{\\an" + [d] + "}" + post));
      |tags| > 0 && AlignmentDigit(tags[0]) == Some(d as int - '0' as int)
  {
    var tag := "{\\an" + [d] + "}";
    AnTagDigit(d);
    FrontTagIsFirst(tag, post, "an" + [d]);
    var tags := [tag] + TagsOf(Pieces(post));
    assert tags[0] == tag;
    FirstAlignmentFront(tags);
  }

  /** A line of the typical test file with a brace followed by a space. */
  const SpacedBraceLine: string :=
    "This " + "{" + " \\an2}" + " is not a valid tag" + " due to the space" + " after the opening bracket."

  /** A `{` followed by a space does not open a tag: the line keeps it as text. */
  lemma SpacedBraceIsText()
    ensures TextOf(Pieces(SpacedBraceLine)) == SpacedBraceLine
  {
    var a, b := "This ", " \\an2}";
    var c1, c2, c3 := " is not a valid tag", " due to the space", " after the opening bracket.";
    assert '{' !in a && '{' !in b;
    assert '{' !in c1;
    assert '{' !in c2;
    assert '{' !in c3;
    var s := SpacedBraceLine;
    var n1 := |a| + 1 + |b|;
    var n2 := n1 + |c1|;
    var n3 := n2 + |c2|;
    forall k | 0 <= k < |s| - 1
      ensures !(s[k] == '{' && s[k + 1] == '\\')
    {
      if k < |a| {
        assert s[k] == a[k];
      } else if k == |a| {
        assert s[k + 1] == b[0];
      } else if k < n1 {
        assert s[k] == b[k - |a| - 1];
      } else if k < n2 {
        assert s[k] == c1[k - n1];
      } else if k < n3 {
        assert s[k] == c2[k - n2];
      } else {
        assert s[k] == c3[k - n3];
      }
    }
    NoTagOpenerMeansLiteral(s);
  }

  // ---------------------------------------------------------------------------
  // Alignment.

  /** `{\an1}` … `{\an9}`: the numeric keypad position of the cue. */
  function AlignmentDigit(tag: string): (n: Option<int>)
    ensures n.Some? ==> 1 <= n.value <= 9
  {
    if |tag| == 6 && tag[..4] == "{\\an" && '1' <= tag[4] <= '9' && tag[5] == '}'
    then Some(tag[4] as int - '0' as int)
    else None
  }

  /** The keypad row: the bottom row (1-3) anchors the cue's end on the line, the top row (7-9) its start. */
  function LineAnchor(n: int): (a: AnchorType)
    requires 1 <= n <= 9
    ensures n <= 3 ==> a == AnchorEnd
    ensures 4 <= n <= 6 ==> a == AnchorMiddle
    ensures 7 <= n ==> a == AnchorStart
  {
    if n <= 3 then AnchorEnd else if n <= 6 then AnchorMiddle else AnchorStart
  }

  /** The keypad column: left (1, 4, 7) anchors the start, right (3, 6, 9) the end. */
  function PositionAnchor(n: int): (a: AnchorType)
    requires 1 <= n <= 9
    ensures (n - 1) % 3 == 0 ==> a == AnchorStart
    ensures (n - 1) % 3 == 1 ==> a == AnchorMiddle
    ensures (n - 1) % 3 == 2 ==> a == AnchorEnd
  {
    var column := (n - 1) % 3;
    if column == 0 then AnchorStart else if column == 1 then AnchorMiddle else AnchorEnd
  }

  /** The keypad position of a pair of anchors: the inverse of the table. */
  function KeypadPosition(lineAnchor: AnchorType, positionAnchor: AnchorType): (n: int)
    ensures 1 <= n <= 9
    ensures LineAnchor(n) == lineAnchor && PositionAnchor(n) == positionAnchor
  {
    var row := match lineAnchor case AnchorEnd => 0 case AnchorMiddle => 1 case AnchorStart => 2;
    var column := match positionAnchor case AnchorStart => 0 case AnchorMiddle => 1 case AnchorEnd => 2;
    3 * row + column + 1
  }

  /** The table is one-to-one: each of the nine positions has its own pair of anchors. */
  lemma AnchorTableInverse(n: int)
    requires 1 <= n <= 9
    ensures KeypadPosition(LineAnchor(n), PositionAnchor(n)) == n
  {
  }

  /** Where an aligned cue is placed; `line` and `position` are the fractions of its anchors. */
  datatype Alignment<F> = Alignment(lineAnchor: AnchorType, lineType: LineType, line: F,
                                    positionAnchor: AnchorType, position: F)

  /** A SubRip cue: its text, and its placement if an alignment tag gave one. */
  datatype SubripCue<F> = SubripCue(text: string, alignment: Option<Alignment<F>>)

  /** The first alignment tag among the tags, if there is one. */
  function FirstAlignment(tags: seq<string>): (n: Option<int>)
    ensures n.Some? ==> 1 <= n.value <= 9
    ensures n.Some? ==> exists i :: 0 <= i < |tags| && AlignmentDigit(tags[i]) == n
    ensures n.None? <==> forall i :: 0 <= i < |tags| ==> AlignmentDigit(tags[i]).None?
  {
    if |tags| == 0 then None
    else if AlignmentDigit(tags[0]).Some? then AlignmentDigit(tags[0])
    else
      var rest := FirstAlignment(tags[1..]);
      assert forall i :: 0 < i < |tags| ==> tags[i] == tags[1..][i - 1];
      rest
  }

  /**
    The placement of a cue whose first alignment tag is `{\anN}`: fraction line type,
    and line and position at the fractions `fraction` gives their anchors
    (`getFractionalPositionForAnchorType`, which is not part of this model).
  */
  function AlignmentFor<F>(n: int, fraction: AnchorType -> F): (a: Alignment<F>)
    requires 1 <= n <= 9
    ensures a.lineType == LineTypeFraction
    ensures a.line == fraction(a.lineAnchor) && a.position == fraction(a.positionAnchor)
    ensures KeypadPosition(a.lineAnchor, a.positionAnchor) == n
  {
    Alignment(LineAnchor(n), LineTypeFraction, fraction(LineAnchor(n)), PositionAnchor(n), fraction(PositionAnchor(n)))
  }

  // ---------------------------------------------------------------------------
  // Blocks and entries.

  /** A block of the file: its sequence number and timing line if they parsed, and its text lines. */
  datatype Block = Block(sequence: Option<int>, timing: Option<(Timecode, Timecode)>, lines: seq<string>)

  /** A block yields a cue when its sequence number and both its timecodes are there and not negative. */
  predicate Kept(b: Block) {
    && b.sequence.Some?
    && b.timing.Some?
    && ValidTimecode(b.timing.value.0)
    && ValidTimecode(b.timing.value.1)
  }

  /**
    An entry of the parser's output: a cue with its timing, or the entry that follows
    each cue at its end time. The tests fix only the start time of the latter.
  */
  datatype Entry<F> = CueEntry(timing: CuesWithTiming<SubripCue<F>>) | EndEntry(startTimeUs: int)

  /** Lines joined by newlines. */
  function JoinLines(lines: seq<string>): string {
    if |lines| == 0 then []
    else if |lines| == 1 then lines[0]
    else lines[0] + "\n" + JoinLines(lines[1..])
  }

  function AllTags(lines: seq<string>): seq<string> {
    if |lines| == 0 then [] else TagsOf(Pieces(lines[0])) + AllTags(lines[1..])
  }

  function StrippedLines(lines: seq<string>): (r: seq<string>)
    ensures |r| == |lines|
    ensures forall i :: 0 <= i < |lines| ==> r[i] == TextOf(Pieces(lines[i]))
  {
    seq(|lines|, i requires 0 <= i < |lines| => TextOf(Pieces(lines[i])))
  }

  /** The cue of a block: its lines without tags, placed by its first alignment tag if any. */
  function BlockCue<F>(lines: seq<string>, fraction: AnchorType -> F): (c: SubripCue<F>)
    ensures c.text == JoinLines(StrippedLines(lines))
    ensures c.alignment.Some? <==> FirstAlignment(AllTags(lines)).Some?
  {
    var n := FirstAlignment(AllTags(lines));
    SubripCue(JoinLines(StrippedLines(lines)), if n.Some? then Some(AlignmentFor(n.value, fraction)) else None)
  }

  /** The entries of one block: none if it is dropped, else the cue and the entry at its end time. */
  function BlockEntries<F>(b: Block, fraction: AnchorType -> F): (es: seq<Entry<F>>)
    ensures |es| == if Kept(b) then 2 else 0
  {
    if !Kept(b) then []
    else
      var startUs := TimecodeUs(b.timing.value.0);
      var endUs := TimecodeUs(b.timing.value.1);
      [CueEntry(CuesWithTiming([BlockCue(b.lines, fraction)], startUs, endUs - startUs)), EndEntry(endUs)]
  }

  /** `SubripParser.parse` on a file cut into `blocks`. */
  function Parse<F>(blocks: seq<Block>, fraction: AnchorType -> F): (es: seq<Entry<F>>)
    ensures |es| == 2 * KeptCount(blocks)
  {
    if |blocks| == 0 then [] else BlockEntries(blocks[0], fraction) + Parse(blocks[1..], fraction)
  }

  /** The number of blocks that yield a cue. */
  function KeptCount(blocks: seq<Block>): nat {
    if |blocks| == 0 then 0 else (if Kept(blocks[0]) then 1 else 0) + KeptCount(blocks[1..])
  }

  /** The entries of two runs of blocks are the entries of each, in order. */
  lemma {:induction false} ParseAppend<F>(a: seq<Block>, b: seq<Block>, fraction: AnchorType -> F)
    ensures Parse(a + b, fraction) == Parse(a, fraction) + Parse(b, fraction)
    decreases |a|
  {
    if |a| == 0 {
      assert a + b == b;
    } else {
      assert (a + b)[1..] == a[1..] + b;
      ParseAppend(a[1..], b, fraction);
    }
  }

  lemma ParseSingle<F>(b: Block, fraction: AnchorType -> F)
    ensures Parse([b], fraction) == BlockEntries(b, fraction)
  {
    assert [b][1..] == [];
  }

  /** A dropped block leaves the entries of its neighbours as they would be without it. */
  lemma DroppedBlockIsSkipped<F>(before: seq<Block>, b: Block, after: seq<Block>, fraction: AnchorType -> F)
    requires !Kept(b)
    ensures Parse(before + [b] + after, fraction) == Parse(before + after, fraction)
  {
    ParseAppend(before + [b], after, fraction);
    ParseAppend(before, [b], fraction);
    ParseAppend(before, after, fraction);
    ParseSingle(b, fraction);
    assert Parse(before + [b], fraction) == Parse(before, fraction);
  }

  /** A file cut short keeps every entry of the complete blocks before the cut. */
  lemma TruncationKeepsEarlierCues<F>(complete: seq<Block>, last: Block, fraction: AnchorType -> F)
    ensures var es := Parse(complete + [last], fraction);
      |es| >= |Parse(complete, fraction)| && es[..|Parse(complete, fraction)|] == Parse(complete, fraction)
  {
    ParseAppend(complete, [last], fraction);
  }

  /** A last block cut short before its timing line is dropped: the file has exactly the entries of the complete blocks. */
  lemma TruncatedBlockAddsNothing<F>(complete: seq<Block>, last: Block, fraction: AnchorType -> F)
    requires !Kept(last)
    ensures Parse(complete + [last], fraction) == Parse(complete, fraction)
  {
    DroppedBlockIsSkipped(complete, last, [], fraction);
    assert complete + [last] + [] == complete + [last];
    assert complete + [] == complete;
  }

  /**
    The layout of the output: two entries per kept block; every even entry is a cue and
    the odd entry after it starts when that cue ends.
  */
  lemma {:induction false} ParseLayout<F>(blocks: seq<Block>, fraction: AnchorType -> F)
    ensures |Parse(blocks, fraction)| == 2 * KeptCount(blocks)
    ensures forall i :: 0 <= i < KeptCount(blocks) ==>
      && Parse(blocks, fraction)[2 * i].CueEntry?
      && Parse(blocks, fraction)[2 * i + 1].EndEntry?
      && Parse(blocks, fraction)[2 * i + 1].startTimeUs
         == Parse(blocks, fraction)[2 * i].timing.startTimeUs + Parse(blocks, fraction)[2 * i].timing.durationUs
    decreases |blocks|
  {
    if |blocks| > 0 {
      ParseLayout(blocks[1..], fraction);
      var head := BlockEntries(blocks[0], fraction);
      var rest := Parse(blocks[1..], fraction);
      var all := Parse(blocks, fraction);
      assert all == head + rest;
      forall i | 0 <= i < KeptCount(blocks)
        ensures all[2 * i].CueEntry? && all[2 * i + 1].EndEntry?
        ensures all[2 * i + 1].startTimeUs == all[2 * i].timing.startTimeUs + all[2 * i].timing.durationUs
      {
        if Kept(blocks[0]) {
          if i > 0 {
            assert all[2 * i] == rest[2 * (i - 1)];
            assert all[2 * i + 1] == rest[2 * (i - 1) + 1];
          }
        } else {
          assert all[2 * i] == rest[2 * i];
          assert all[2 * i + 1] == rest[2 * i + 1];
        }
      }
    }
  }

  /**
    A block's cue is placed by its first alignment tag, on the keypad table, with fraction
    line type; a block without one is not placed.
  */
  lemma BlockCueAlignment<F>(lines: seq<string>, fraction: AnchorType -> F, n: int)
    requires FirstAlignment(AllTags(lines)) == Some(n)
    ensures var a := BlockCue(lines, fraction).alignment;
      && a.Some?
      && a.value.lineAnchor == LineAnchor(n) && a.value.positionAnchor == PositionAnchor(n)
      && a.value.lineType == LineTypeFraction
      && a.value.line == fraction(LineAnchor(n)) && a.value.position == fraction(PositionAnchor(n))
  {
  }

  lemma FirstAlignmentOfFront(tags: seq<string>, more: seq<string>)
    requires |tags| > 0 && AlignmentDigit(tags[0]).Some?
    ensures FirstAlignment(tags + more) == AlignmentDigit(tags[0])
  {
    assert (tags + more)[0] == tags[0];
  }

  /** A block whose first line opens with `{\anN}` is placed by the keypad table at N. */
  lemma AlignedLinePlacesCue<F>(d: char, post: string, rest: seq<string>, fraction: AnchorType -> F)
    requires '1' <= d <= '9'
    ensures var lines := ["{\\an" + [d] + "}" + post] + rest;
      && FirstAlignment(AllTags(lines)) == Some(d as int - '0' as int)
      && BlockCue(lines, fraction).alignment == Some(AlignmentFor(d as int - '0' as int, fraction))
  {
    var line := "{\\an" + [d] + "}" + post;
    var lines := [line] + rest;
    AlignmentTagIsFound(d, post);
    assert lines[0] == line && lines[1..] == rest;
    assert AllTags(lines) == TagsOf(Pieces(line)) + AllTags(rest);
    FirstAlignmentOfFront(TagsOf(Pieces(line)), AllTags(rest));
  }

  /** An empty file has no entries. */
  lemma ParseEmpty<F>(fraction: AnchorType -> F)
    ensures Parse([], fraction) == []
  {
  }

  /** A kept block's cue lasts from its start timecode to its end timecode. */
  lemma KeptBlockTiming<F>(b: Block, fraction: AnchorType -> F)
    requires Kept(b)
    ensures var es := BlockEntries(b, fraction);
      && es[0].timing.startTimeUs == TimecodeUs(b.timing.value.0)
      && es[0].timing.startTimeUs + es[0].timing.durationUs == TimecodeUs(b.timing.value.1)
      && es[1].startTimeUs == TimecodeUs(b.timing.value.1)
  {
  }

  /** The timings the typical file's assertions give. */
  lemma TypicalTimings()
    ensures TimecodeUs(Timecode(Some(0), 0, 0, Some(0))) == 0
    ensures TimecodeUs(Timecode(Some(0), 0, 1, Some(234))) == 1234000
    ensures TimecodeUs(Timecode(Some(0), 0, 2, Some(345))) == 2345000
    ensures TimecodeUs(Timecode(Some(0), 0, 3, Some(456))) == 3456000
    ensures TimecodeUs(Timecode(Some(2), 0, 4, Some(567))) == (((2 * 60 * 60) + 4) * 1000 + 567) * 1000
    ensures TimecodeUs(Timecode(Some(2), 0, 8, Some(901))) == (((2 * 60 * 60) + 8) * 1000 + 901) * 1000
    ensures TimecodeUs(Timecode(None, 0, 2, None)) == 2_000_000
    ensures TimecodeUs(Timecode(None, 0, 3, None)) == 3_000_000
  {
  }
}

=== FILE: wrappers.dfy ===
/**
  Failure-compatible wrappers shared by every module of the model: `Option` stands for
  a Java reference that may be null, `Result` for a value or the exception that aborts
  the computation.
*/
module Wrappers {

  /** A nullable reference: `None` is Java's null. */
  datatype Option<+T> = None | Some(value: T) {

    /** The value, or `default` when null. */
    function GetOr(default: T): T {
      match this
      case Some(v) => v
      case None => default
    }
  }

  /** A computed value, or the failure that stops the computation. */
  datatype Result<+R, +E> = Success(value: R) | Failure(error: E) {

    predicate IsFailure() {
      Failure?
    }

    function PropagateFailure<U>(): Result<U, E>
      requires Failure?
    {
      Failure(error)
    }

    function Extract(): R
      requires Success?
    {
      value
    }
  }
}
